=== FILE: README.md ===
# Posideon renderer core, modelled in Dafny

Posideon is a small C++ Vulkan renderer. Under its Vulkan and Win32 plumbing
sit a few pieces of pure decision logic, and this project models them:

- **Swapchain set-up** (`swapchain.dfy`).
  - The forward renderer derives every swapchain parameter from the surface:
    present mode, image count, extent, format and colour space, composite
    alpha, usage and pre-transform.
  - It recreates the swapchain by creating the new one first. Only then, and
    only when an old one exists, does it destroy the old views and the old
    swapchain.
  - The compute/blit renderer's `create_swapchain` uses fixed parameters. It
    is modelled as a separate function. It is compared with the forward
    renderer's over all surfaces, with concrete surfaces where they differ.
- **First-match selections** (`search.dfy`, `device_selection.dfy`).
  - The graphics+present queue family and the physical device.
  - The depth format, taken from a fixed preference list.
  - The "has stencil" test, which compares VkFormat values numerically.
- **Dynamic uniform buffer growth** (`uniform_buffers.dfy`). The model-matrix
  buffer is reallocated, and its descriptor rewritten, only when a batch does
  not fit. The view buffer is created once. Every mesh table copies its
  matrices to the start of the mapped buffer, so a frame ends holding the last
  table's matrices only. Whole calls of `prepare_uniform_buffers` are chained
  over consecutive frames.
- **Frame ring and per-frame sequence** (`frame_loop.dfy`).
  - FRAME_OVERLAP frame contexts and how they are created.
  - `render` as a trace of calls, checked against two independent references:
    the call protocol (wait, reset, acquire, record, submit, present, advance)
    and the image-layout state machine.
- **GraphicsPipelineBuilder** (`pipeline_builder.dfy`): `clear`, `build`,
  every setter, and the triangle pipeline the renderer builds with them.
- **glTF mesh loading** (`gltf_loader.dfy`). Each mesh's primitives are merged
  into one index buffer and one vertex buffer:
  - each primitive's indices are rebased by the vertices before it;
  - one surface per primitive records its index range;
  - attribute defaults apply first, then the colour override.

Modelling conventions:

- Vulkan handles are natural numbers, with 0 as VK_NULL_HANDLE. Fresh handles
  come from a counter.
- Enums are datatypes and flag masks are sets.
- `uint32_t` and `size_t` arithmetic is written out modulo 2^32 and 2^64
  where the source narrows or wraps.
- Driver answers are parameters: surface capabilities, the swapchain's images,
  the acquired image index, and the results of acquire, command-buffer begin
  and end, submit and present.
- The glTF parser's output is a parameter: `None` for a failed parse, else a
  document of plain sequences.
- Floating-point contents (matrices, vertex components) are opaque values.

## Model

| member | source | states |
|---|---|---|
| Search.FirstMatch | src/render/forward_renderer.cpp:85-101 | the index returned is the lowest index whose element satisfies the predicate; None exactly when no element does |
| Swapchain.ChoosePresentMode | src/render/forward_renderer.cpp:224-233 | MAILBOX exactly when vsync is off and the surface lists MAILBOX; FIFO in every other case |
| Swapchain.ChooseImageCount | src/render/forward_renderer.cpp:235-238 | never above a nonzero maximum; below UINT32_MAX, minImageCount+1 when that fits under the maximum (or there is none), else the maximum; 0 when minImageCount is UINT32_MAX, whatever the maximum, because the sum wraps and the clamp is skipped |
| Swapchain.ImageCountWithinLimits | src/render/forward_renderer.cpp:235-238 | on well-formed capabilities the count lies between the surface's minimum and maximum and is at most one above the minimum |
| Swapchain.ImageCountWrapsAtUint32Max | src/render/forward_renderer.cpp:235 | the `uint32_t` sum wraps: a minimum of UINT32_MAX asks for 0 images, with or without a maximum |
| Swapchain.ChoosePreTransform | src/render/forward_renderer.cpp:240-245 | IDENTITY exactly when the surface supports it or already applies it; otherwise the current transform |
| Swapchain.ChooseExtent | src/render/forward_renderer.cpp:247-253 | the window size when currentExtent.width is the UINT32_MAX sentinel, else exactly currentExtent; never the sentinel for a real window width |
| Swapchain.ChooseSurfaceFormat | src/render/forward_renderer.cpp:255-269 | a listed entry; the first 8-bit BGRA/RGBA UNORM entry when one exists, else the first entry |
| Swapchain.ChooseCompositeAlpha | src/render/forward_renderer.cpp:271-283 | a supported mode ranked highest in OPAQUE, PRE_MULTIPLIED, POST_MULTIPLIED, INHERIT order; OPAQUE when none is supported |
| Swapchain.ChooseImageUsage | src/render/forward_renderer.cpp:285-291 | always COLOR_ATTACHMENT, plus exactly those of TRANSFER_SRC and TRANSFER_DST that the surface supports |
| Swapchain.ForwardCreateInfo | src/render/forward_renderer.cpp:293-308 | every field is the corresponding choice (count, extent, format and colour space, usage, alpha, transform, present mode), so the format is a listed one, alpha and transform are supported, the count is bounded; single layer, clipped, the old swapchain handed over |
| Swapchain.RendererCreateInfo | src/render/renderer.cpp:113-137 | the compute/blit snapshot: unclamped minImageCount+1 narrowed to 32 bits, fixed B8G8R8A8_UNORM/SRGB_NONLINEAR, FIFO, COLOR_ATTACHMENT and TRANSFER_DST, currentExtent as is, a single array layer, clipped, no old swapchain |
| Swapchain.SnapshotsDifferOnImageCountClamp | src/render/renderer.cpp:115 | with minImageCount == maxImageCount == 3 the forward renderer asks for 3 images and the compute/blit renderer for 4 |
| Swapchain.SnapshotsDifferOnUndefinedExtent | src/render/renderer.cpp:118 | for a surface with an undefined extent the compute/blit renderer passes the UINT32_MAX sentinel through, where the forward renderer uses the window size |
| Swapchain.SnapshotsAgreeOnImageCount | src/render/renderer.cpp:115 | over all surfaces, the two snapshots ask for the same image count exactly when the surface has no maximum, a maximum of at least minImageCount+1, or a minimum of UINT32_MAX (both wrap to 0) |
| Swapchain.SnapshotsAgreeOnExtent | src/render/renderer.cpp:118 | over all surfaces, the two snapshots choose the same extent exactly when the surface's currentExtent is defined, or equals the window size |
| Swapchain.Recreate | src/render/forward_renderer.cpp:310-328 | the new swapchain is created first, with the old one handed over; the old views and swapchain are destroyed only when the old handle is non-null; then one fresh view per new image |
| Swapchain.NewSwapchainLiveThroughout | src/render/forward_renderer.cpp:310-317 | at every point of the recreation trace after its first event the new swapchain is live |
| Swapchain.RecreateLiveSet | src/render/forward_renderer.cpp:310-328 | after recreation the live handles are the earlier ones without the old swapchain and its views, plus the new swapchain and its views |
| Swapchain.RendererCreate | src/render/renderer.cpp:138-148 | the compute/blit renderer creates the swapchain and one view per image and never destroys anything |
| DeviceSelection.CheckPhysicalDevice | src/render/renderer.cpp:345-362 | true exactly when some family has queues, graphics and present support; the index recorded is the lowest such family; on false the device is untouched |
| DeviceSelection.SelectPhysicalDevice | src/render/renderer.cpp:33-41 | the first device with a graphics+present family, with the lowest such family's index recorded; an error exactly when no device has one |
| DeviceSelection.ChooseDepthFormat | src/render/forward_renderer.cpp:85-101 | the first of D32_SFLOAT_S8_UINT, D32_SFLOAT, D24_UNORM_S8_UINT, D16_UNORM_S8_UINT, D16_UNORM with the depth-stencil attachment feature; an error exactly when none has it, never UNDEFINED |
| DeviceSelection.StencilByCodeOnCandidates | src/render/forward_renderer.cpp:114 | on the depth candidates, "format >= D16_UNORM_S8_UINT" holds exactly for the three formats with a stencil component |
| DeviceSelection.StencilByCodeMissesS8Uint | src/render/forward_renderer.cpp:203 | outside the candidate list the numeric test is not a stencil test: S8_UINT has stencil but sorts below D16_UNORM_S8_UINT |
| DeviceSelection.DepthSetupFor | src/render/forward_renderer.cpp:419-421 | for a chosen depth format, the view's stencil aspect, the pipeline's stencil format and the stencil attachment are all present exactly when the format carries stencil |
| UniformBuffers.GatherUniforms | src/render/forward_renderer.cpp:337-341 | after n iterations of the push loop the vector holds n matrices, the i-th being the one the loop reads for entity i |
| UniformBuffers.BatchUniforms | src/render/forward_renderer.cpp:337-341 | with the corrected read, the gathered uniforms are exactly the batch's model matrices, in order |
| UniformBuffers.BatchUniformsAsWritten | src/render/forward_renderer.cpp:337-341 | as written, every entity of a batch contributes the batch's first model matrix |
| UniformBuffers.AsWrittenDuplicatesFirstTransform | src/render/forward_renderer.cpp:340 | for every batch, the loop as written uploads the intended data exactly when all its entities share the first model matrix |
| UniformBuffers.PrepareMeshBatch | src/render/forward_renderer.cpp:342-359 | a buffer is created and the descriptor rewritten exactly when capacity is below count*64 bytes; then the next handle becomes a buffer of exactly that size, is mapped, and is bound to the model set at binding 0 with that range; capacity never shrinks; a non-null old buffer is unmapped and destroyed before the new one is created, and a null one releases nothing; the gathered matrices are copied last, and with the corrected read they are the batch's own |
| UniformBuffers.PrepareViewBatch | src/render/forward_renderer.cpp:367-378 | the view buffer is created, mapped and written into the view descriptor set only when it is null; afterwards only the camera matrices are copied |
| UniformBuffers.PrepareMeshBatches | src/render/forward_renderer.cpp:336-360 | after all mesh batches of a frame the capacity is at least what it was and holds every batch; the view buffer and descriptor sets are untouched; every table copies to the start of the buffer, so the frame's last event is the last table's matrices |
| UniformBuffers.NoReallocationWhenBatchesFit | src/render/forward_renderer.cpp:342-357 | batches that fit the current capacity create no buffer, rewrite no descriptor and leave the state unchanged; every event is a copy into the current buffer |
| UniformBuffers.PrepareViewBatches | src/render/forward_renderer.cpp:362-379 | the view query never touches the dynamic buffer; once a view buffer exists it creates and rebinds nothing and changes no state |
| UniformBuffers.PrepareUniformBuffers | src/render/forward_renderer.cpp:335-380 | after one call the capacity holds every mesh batch of the frame and never shrank; a view buffer exists once any camera has been seen |
| UniformBuffers.MaxBatch | src/render/forward_renderer.cpp:342 | the largest entity count of a frame's mesh batches: no batch exceeds it and one attains it |
| UniformBuffers.FramesThatFitAreQuiet | src/render/forward_renderer.cpp:342-379 | frames whose largest batch fits the capacity, with a view buffer in place, allocate nothing, rebind nothing and change no state |
| UniformBuffers.FitFrameKeepsDynamicBuffer | src/render/forward_renderer.cpp:335-380 | a frame whose largest batch fits keeps the dynamic buffer, never unmaps, destroys or rebinds binding 0, and creates nothing but the view buffer |
| UniformBuffers.FitFramesKeepDynamicBuffer | src/render/forward_renderer.cpp:335-380 | over frames whose largest batches all fit, the dynamic buffer is kept and every frame creates at most the final view buffer |
| UniformBuffers.FirstFrameCoversLater | src/render/forward_renderer.cpp:342-355 | after the first of a run of frames whose largest batch never grows, the dynamic buffer holds every later frame's largest batch |
| UniformBuffers.DynamicBufferSettlesAfterFirstFrame | src/render/forward_renderer.cpp:335-380 | with no condition on cameras: over frames whose largest batch never grows, the dynamic buffer is the one the first frame leaves, and no later frame unmaps, destroys or re-creates it or rebinds binding 0; the only buffer a later frame may create is the view buffer, on its first camera |
| UniformBuffers.NonIncreasingFramesReallocateOnce | src/render/forward_renderer.cpp:335-380 | over consecutive frames whose largest batch never grows, once a camera has been seen in the first frame, no later frame creates a buffer or rewrites a descriptor, and the state after the first frame is final |
| FrameLoop.FrameIndex | src/render/renderer.h:88 | the context index is below FRAME_OVERLAP |
| FrameLoop.AdvanceFrame | src/render/renderer.cpp:317 | the 64-bit frame counter moves by one, wrapping only at 2^64 |
| FrameLoop.ConsecutiveFramesDiffer | src/render/renderer.h:88 | consecutive frame numbers select different contexts, across the 64-bit wrap as well |
| FrameLoop.VisitsRoundRobin | src/render/renderer.h:66-88 | successive frames visit the contexts round-robin: step i uses context (start + i) mod FRAME_OVERLAP |
| FrameLoop.CreateSyncStructures | src/render/renderer.cpp:171-177 | each context gets a fresh fence created signalled and two distinct fresh semaphores; nothing else in the context changes and existing objects are kept |
| FrameLoop.CreateCommandStructures | src/render/renderer.cpp:164-169 | each context gets a fresh pool holding exactly one command buffer allocated from it; nothing else changes |
| FrameLoop.InitFrameContexts | src/render/renderer.cpp:164-177 | FRAME_OVERLAP contexts, each ready for its first frame, sharing no handle |
| FrameLoop.CurrentFrame | src/render/renderer.h:88 | the context used is one of the FRAME_OVERLAP contexts, the one at frame_number mod FRAME_OVERLAP |
| FrameLoop.GroupCount | src/render/renderer.cpp:323 | the workgroup count is ceil(extent/16): it covers the extent and one group fewer would not |
| FrameLoop.DrawBackground | src/render/renderer.cpp:320-324 | the compute pass ends with a dispatch on the draw image whose 16x16 groups cover its extent with no spare row or column of groups |
| FrameLoop.DrawGeometry | src/render/renderer.cpp:326-343 | the geometry pass opens rendering on the draw image with the given attachment layout, sets viewport and scissor to the draw extent, draws 3 vertices and closes rendering, with no transition inside |
| FrameLoop.RecordCommands | src/render/renderer.cpp:258-271 | the recorded body is 15 calls, all of them allowed while recording, and every transition is on the draw image or the acquired swapchain image |
| FrameLoop.Render | src/render/renderer.cpp:246-318 | with AsWrittenAttachmentLayout this is the source's `render`; a frame is presented exactly when acquire returns SUCCESS or SUBOPTIMAL and begin, end, submit and present return SUCCESS, otherwise it stops at the failing call; the first call waits on the current context's fence; only a presented frame advances the counter |
| FrameLoop.RenderFollowsProtocol | src/render/renderer.cpp:246-318 | for either attachment layout, a presented frame runs the wait, reset, acquire, reset/begin, record, end, submit, present, advance protocol from idle back to idle; an aborted frame stops part-way in a phase other than idle |
| FrameLoop.RenderUsesOneContext | src/render/renderer.cpp:247-317 | every fence, semaphore and command buffer used in a frame belongs to the context selected at entry; the frame number changes only at the last call of a presented frame, and an aborted frame never changes it |
| FrameLoop.ReuseWaitsOnSubmittedFence | src/render/renderer.cpp:247-303 | two frames later the same context is selected again, and its first call waits on the fence this frame's submit signalled |
| FrameLoop.RecordedLayoutsConsistent | src/render/renderer.cpp:258-271 | each transition starts from the layout the image is in: the draw image goes UNDEFINED, GENERAL, COLOR_ATTACHMENT_OPTIMAL, TRANSFER_SRC and the swapchain image UNDEFINED, TRANSFER_DST, PRESENT_SRC; compute runs in GENERAL, geometry in COLOR_ATTACHMENT_OPTIMAL, the blit between TRANSFER_SRC and TRANSFER_DST |
| FrameLoop.AsWrittenAttachmentLayoutMismatch | src/render/renderer.cpp:331 | as written, the geometry pass declares its attachment GENERAL while the image is in COLOR_ATTACHMENT_OPTIMAL, and the layout replay rejects the recording |
| FrameLoop.PresentedFrameLayoutsConsistent | src/render/renderer.cpp:246-315 | with the attachment declared COLOR_ATTACHMENT_OPTIMAL, replaying a whole presented frame from any layouts leaves the swapchain image in PRESENT_SRC when it is presented, the draw image in TRANSFER_SRC, and every other image as it was |
| FrameLoop.AsWrittenFrameLayoutsRejected | src/render/renderer.cpp:326-343 | the frame the source records, replayed whole from any layouts, is rejected by the layout rule, at the geometry pass's GENERAL attachment |
| PipelineBuilder.Clear | src/graphics/vulkan/vulkan_pipeline.cpp:4-34 | no stages, null layout, one viewport and scissor, one blend attachment with logic op off, dynamic viewport and scissor, no colour attachment, no depth or stencil test |
| PipelineBuilder.NewBuilder | src/graphics/vulkan/vulkan_pipeline.h:25 | a new builder is a cleared one with no colour format recorded |
| PipelineBuilder.Apply | src/graphics/vulkan/vulkan_pipeline.cpp:55-119 | a setter writes only its own group of builder fields: viewport state, colour blending and dynamic states never change, and every field outside the setter's group keeps its value |
| PipelineBuilder.Build | src/graphics/vulkan/vulkan_pipeline.cpp:36-53 | stageCount is the number of stages; the layout, stages and depth format are the builder's; the colour formats point at the builder's format when one is set; every blend attachment is the builder's one attachment |
| PipelineBuilder.ClearForgetsConfiguration | src/graphics/vulkan/vulkan_pipeline.cpp:4-34 | any two cleared builders build the same create-info, whatever they held before |
| PipelineBuilder.SetterEffect | src/graphics/vulkan/vulkan_pipeline.cpp:55-119 | each setter changes exactly its own fields of the built create-info to the documented values and leaves every other field as before |
| PipelineBuilder.SettersCommute | src/graphics/vulkan/vulkan_pipeline.cpp:55-119 | setters of different kinds can be applied in either order |
| PipelineBuilder.LastSetterWins | src/graphics/vulkan/vulkan_pipeline.cpp:55-69 | of two calls of the same setter the last wins and nothing accumulates, so `set_shaders` is idempotent |
| PipelineBuilder.TriangleBuilder | src/render/renderer.cpp:232-243 | the configured builder holds the given layout, the two given stages, the draw format as its one colour attachment and no depth format, and keeps clear's viewport, blending and dynamic states, with depth, stencil and blending off; a triangle list without restart, filled with no culling and clockwise front faces, one sample, all colour components written |
| PipelineBuilder.TrianglePipelineConfiguration | src/render/renderer.cpp:232-243 | the triangle pipeline: two "main" stages, triangle list without restart, filled, no culling, clockwise, one sample, one unblended attachment of the draw format, no depth, dynamic viewport and scissor, the given layout |
| GltfLoader.PrimitiveVertices | src/assets/gltf_loader.cpp:50-97 | one vertex per POSITION element; each carries the i-th NORMAL, TEXCOORD_0 and COLOR_0 element where present, else normal (1,0,0), uv (0,0), colour (1,1,1,1) |
| GltfLoader.Rebase | src/assets/gltf_loader.cpp:37-46 | every index is offset by the vertex count before the primitive, exactly when the sum fits in 32 bits |
| GltfLoader.AddPrimitive | src/assets/gltf_loader.cpp:33-99 | fails exactly on a primitive without indices; otherwise appends one surface, the primitive's indices and its vertices, keeping what was there |
| GltfLoader.Merge | src/assets/gltf_loader.cpp:29-99 | the primitive loop: its only failure is a missing index accessor, and on success there is one surface per primitive |
| GltfLoader.MergeLaysOut | src/assets/gltf_loader.cpp:29-99 | merging succeeds exactly when every primitive is indexed; then surface k starts at the index count before k, counts k's indices, and k's rebased indices and vertices sit at those offsets |
| GltfLoader.SurfacesContiguous | src/assets/gltf_loader.cpp:34-35 | surfaces partition the index array: the first starts at 0, each starts where the previous ends, the last ends at the total |
| GltfLoader.IndicesStayInOwnPrimitive | src/assets/gltf_loader.cpp:37-46 | when a primitive's indices address its own positions, its merged indices address exactly its own slice of the vertex array |
| GltfLoader.OverrideColors | src/assets/gltf_loader.cpp:102-107 | every vertex's colour becomes its normal with alpha 1; nothing else changes |
| GltfLoader.SegmentStaysInOwnPrimitive | src/assets/gltf_loader.cpp:37-46 | in any merge laid out by prefix totals, a primitive whose indices address its own positions has every merged index inside its own slice of the vertex array |
| GltfLoader.LoadMesh | src/assets/gltf_loader.cpp:25-109 | one asset under the mesh's name from this mesh's primitives only, colours overridden; the only failure is a missing index accessor |
| GltfLoader.LoadedVertex | src/assets/gltf_loader.cpp:50-107 | the uploaded vertex at a primitive's base plus i carries that primitive's i-th position, attributes or defaults, and the overridden colour |
| GltfLoader.LaidOutVertex | src/assets/gltf_loader.cpp:50-99 | in any merge laid out by prefix totals, primitive k's vertex i sits at k's vertex base plus i |
| GltfLoader.CollectAssets | src/assets/gltf_loader.cpp:25-110 | the loop's per-mesh results collected in order: success exactly when every result succeeds, then one asset per result; otherwise the error of the first failing result, with every earlier one a success |
| GltfLoader.LoadMeshes | src/assets/gltf_loader.cpp:25-110 | one asset per mesh in order, each what loading that mesh alone gives; fails exactly when some mesh fails, and then only with a missing index accessor |
| GltfLoader.LoadGltfMeshes | src/assets/gltf_loader.cpp:18-112 | a failed parse is an error; otherwise success exactly when every primitive has indices, with one asset per mesh, each the one `LoadMesh` gives for that mesh, carrying its name and one surface per primitive; a parsed document fails only on a missing index accessor |

## Left out

- Vulkan instance and device wrappers (`vulkan_instance.cpp`, `vulkan_device.cpp`): thin calls that assert success. Created handles are fresh numbers. The one acceptance rule that matters, acquire accepting SUCCESS or SUBOPTIMAL (src/graphics/vulkan/vulkan_device.cpp:99), is `FrameLoop.AcquireAccepted`.
- The command encoder: its recording calls become `Call` values. The encoder's own signature mismatches, its fixed COLOR aspect and its ignored vertex count are not modelled.
- `POSIDEON_ASSERT` (src/defines.h:9-13) breaks into the debugger. `Render` models each asserted call as ending the frame at the failing call: begin and end (src/graphics/vulkan/vulkan_command_encoder.cpp:9-10 and 86-87), submit and present (src/render/renderer.cpp:303-304 and 314-315). A debugger that resumes past the break is not modelled.
- `wait_for_fence`, `reset_fence` and the encoder's `reset` are called by `render` but not defined in the code modelled here. They are treated as always succeeding, so the trace always starts with the wait, the reset and the acquire.
- The model-matrix payload is a parameter (`TransformRead`). `AsWrittenRead` is the source's loop, and `CorrectedRead` is the evidently intended one (see Findings). The rest of the uniform model holds for both.
- Fence and semaphore semantics (blocking, signalling, GPU execution) are concurrency. Only the order of calls is modelled.
- The Direct3D 11 path (`render.cpp`), the Win32 window, the application glue and `readFile`.
- The flecs queries: each batch is an input sequence. The fastgltf parser is represented by its result, and VMA allocation by fresh handles.
- A view-query table is one `Camera`. The callback reads the projection and the transform through the table's base pointers (src/render/forward_renderer.cpp:362-366), so only the table's first entity counts; further cameras in the same table are not represented.
- `create_mesh`, staging uploads, `immediate_submit`, the descriptor allocator, `create_buffer`, `create_image` and memory-type selection are not part of this model; the renderer only calls them.
- `enable_depth_test` is declared (src/graphics/vulkan/vulkan_pipeline.h:39) but has no definition, so it has no setter here.
- Stencil face states are zeroed by `clear` and `disable_depth_test` and are not represented. Colour-blend constants, vertex input and `sType`/`pNext` fields are not represented either.
- Floating-point contents (matrices, viewport, clear colours, vertex components) are opaque. The float `std::ceil(extent / 16.0f)` is modelled as integer ceil-division; the two agree for extents below 2^24.
- The forward renderer's own `render`, mesh upload and pipeline set-up: outside the swapchain, depth and uniform logic above.
- GltfLoader.PrimitiveVertices: a missing POSITION attribute (a dereference of `end()`) and an attribute longer than POSITION (a write past the resized array) are undefined behaviour in the source. They are preconditions (`WellFormedPrimitive`), not error results. A missing index accessor throws from `optional::value()` and is modelled as an error.
- GltfLoader.SurfacesContiguous: requires the mesh's index total below 2^32. Above that, the `uint32_t` start indices wrap.
- GltfLoader.IndicesStayInOwnPrimitive: requires the mesh's vertex total at most 2^32, so that rebased indices do not wrap.
- Swapchain.ImageCountWithinLimits: requires minImageCount below UINT32_MAX. The wrapping case is stated separately by `Swapchain.ImageCountWrapsAtUint32Max`.
- Swapchain.ChooseSurfaceFormat: requires a non-empty format list. The source indexes `surface_formats[0]` without a check.
- DeviceSelection.StencilByCodeOnCandidates: the numeric stencil test matches "has stencil" only on the five depth candidates. `StencilByCodeMissesS8Uint` shows it does not match in general.
- PipelineBuilder.Build: `stageCount` and `dynamicStateCount` equal the list lengths only below 2^32, where the `uint32_t` casts are exact.

## Findings

| source | as written | input that shows it | evidently intended | confidence | as-written member | corrected member |
|---|---|---|---|---|---|---|
| src/render/renderer.cpp:331 | the geometry pass's colour attachment declares VK_IMAGE_LAYOUT_GENERAL | any frame: line 262 has just moved the draw image to COLOR_ATTACHMENT_OPTIMAL | the attachment declares COLOR_ATTACHMENT_OPTIMAL, the layout the image is in | medium, not executed | FrameLoop.AsWrittenFrameLayoutsRejected | FrameLoop.PresentedFrameLayoutsConsistent |
| src/render/forward_renderer.cpp:340 | every entity in a batch pushes `transform->model`, the batch's first transform | a batch of two entities with different model matrices | the i-th entity pushes `transform[i].model` | high, not executed | UniformBuffers.AsWrittenDuplicatesFirstTransform | UniformBuffers.BatchUniforms |

=== FILE: device_selection.dfy ===
/** Start-up choices made by scanning fixed lists: the queue family and
    physical device, the depth format, and the "has stencil" test that the
    depth attachment setup derives from it. */
module DeviceSelection {
  import opened Wrappers
  import opened Search
  import opened VkTypes

  /** VkQueueFamilyProperties together with the surface's answer to
      vkGetPhysicalDeviceSurfaceSupportKHR for that family. */
  datatype QueueFamily = QueueFamily(queueCount: Uint32, queueFlags: set<QueueFlag>, presentSupport: bool)

  /** VulkanPhysicalDevice: the raw handle, its queue families, and the chosen
      graphics family index (initialised to `uint32_t(-1)`). */
  datatype PhysicalDevice = PhysicalDevice(raw: Handle, families: seq<QueueFamily>, graphicsFamilyIndex: Uint32)

  /** A family that has queues, can do graphics, and can present. */
  predicate IsGraphicsPresentFamily(f: QueueFamily) {
    f.queueCount > 0 && QueueGraphics in f.queueFlags && f.presentSupport
  }

  /** `check_physical_device`: scan the families in index order and record the
      first graphics+present family. On failure the device is left untouched. */
  method CheckPhysicalDevice(device: PhysicalDevice) returns (found: bool, result: PhysicalDevice)
    requires |device.families| < Uint32Modulus
    ensures found <==> exists i :: 0 <= i < |device.families| && IsGraphicsPresentFamily(device.families[i])
    ensures found ==> result.graphicsFamilyIndex < |device.families|
                      && IsGraphicsPresentFamily(device.families[result.graphicsFamilyIndex])
                      && NoneBefore(device.families, IsGraphicsPresentFamily, result.graphicsFamilyIndex)
    ensures !found ==> result == device
    ensures result.raw == device.raw && result.families == device.families
  {
    var i: nat := 0;
    while i < |device.families|
      invariant i <= |device.families|
      invariant NoneBefore(device.families, IsGraphicsPresentFamily, i)
    {
      var family := device.families[i];
      if family.queueCount > 0 && QueueGraphics in family.queueFlags {
        if family.presentSupport {
          return true, device.(graphicsFamilyIndex := i);
        }
      }
      i := i + 1;
    }
    return false, device;
  }

  datatype InitError = NoSuitableDevice | NoDepthFormat

  /** True when `device` has at least one graphics+present family. */
  predicate HasGraphicsPresentFamily(device: PhysicalDevice) {
    exists i :: 0 <= i < |device.families| && IsGraphicsPresentFamily(device.families[i])
  }

  /** The device loop of the renderer's initialisation: the first device that
      passes `check_physical_device`; none passing trips the non-null assertion. */
  method SelectPhysicalDevice(devices: seq<PhysicalDevice>) returns (r: Result<PhysicalDevice, InitError>)
    requires forall d :: d in devices ==> |d.families| < Uint32Modulus
    ensures r.Err? <==> forall k :: 0 <= k < |devices| ==> !HasGraphicsPresentFamily(devices[k])
    ensures r.Err? ==> r.error == NoSuitableDevice
    ensures r.Ok? ==> exists k :: 0 <= k < |devices|
                        && HasGraphicsPresentFamily(devices[k])
                        && (forall j :: 0 <= j < k ==> !HasGraphicsPresentFamily(devices[j]))
                        && r.value == devices[k].(graphicsFamilyIndex := r.value.graphicsFamilyIndex)
    ensures r.Ok? ==> r.value.graphicsFamilyIndex < |r.value.families|
                      && IsGraphicsPresentFamily(r.value.families[r.value.graphicsFamilyIndex])
                      && NoneBefore(r.value.families, IsGraphicsPresentFamily, r.value.graphicsFamilyIndex)
  {
    var k: nat := 0;
    while k < |devices|
      invariant k <= |devices|
      invariant forall j :: 0 <= j < k ==> !HasGraphicsPresentFamily(devices[j])
    {
      var found, checked := CheckPhysicalDevice(devices[k]);
      if found {
        return Ok(checked);
      }
      k := k + 1;
    }
    return Err(NoSuitableDevice);
  }

  // ---------------------------------------------------------------------------
  // Depth format
  // ---------------------------------------------------------------------------

  /** The depth formats tried, most preferred first. */
  const DepthCandidates: seq<Format> := [D32SfloatS8Uint, D32Sfloat, D24UnormS8Uint, D16UnormS8Uint, D16Unorm]

  /** Optimal-tiling features per format as vkGetPhysicalDeviceFormatProperties
      reports them; a format missing from the map has none. */
  type FormatFeatureTable = map<Format, set<FormatFeature>>

  predicate SupportsDepthAttachment(table: FormatFeatureTable, f: Format) {
    f in table && FeatureDepthStencilAttachment in table[f]
  }

  /** The first candidate usable as a depth-stencil attachment; none trips the
      assertion that the depth format is not UNDEFINED. */
  function ChooseDepthFormat(table: FormatFeatureTable): (r: Result<Format, InitError>)
    ensures r.Ok? ==> exists k :: 0 <= k < |DepthCandidates| && DepthCandidates[k] == r.value
                        && SupportsDepthAttachment(table, r.value)
                        && forall j :: 0 <= j < k ==> !SupportsDepthAttachment(table, DepthCandidates[j])
    ensures r.Ok? ==> r.value != FormatUndefined
    ensures r.Err? <==> forall f :: f in DepthCandidates ==> !SupportsDepthAttachment(table, f)
    ensures r.Err? ==> r.error == NoDepthFormat
  {
    match FirstMatch(DepthCandidates, f => SupportsDepthAttachment(table, f))
    case Some(k) => Ok(DepthCandidates[k])
    case None => Err(NoDepthFormat)
  }

  /** Formats with an 8-bit stencil component, by their definition. */
  predicate CarriesStencil(f: Format) {
    f == S8Uint || f == D16UnormS8Uint || f == D24UnormS8Uint || f == D32SfloatS8Uint
  }

  /** The renderer's stencil test: numeric comparison with D16_UNORM_S8_UINT. */
  predicate StencilByCode(f: Format) {
    FormatCode(f) >= FormatCode(D16UnormS8Uint)
  }

  /** On the depth candidates the numeric test is exactly "has a stencil component". */
  lemma StencilByCodeOnCandidates(f: Format)
    requires f in DepthCandidates
    ensures StencilByCode(f) <==> CarriesStencil(f)
    ensures StencilByCode(f) <==> f in {D32SfloatS8Uint, D24UnormS8Uint, D16UnormS8Uint}
  {
  }

  /** Outside the candidate list the numeric test is not a stencil test:
      stencil-only S8_UINT sorts below D16_UNORM_S8_UINT. */
  lemma StencilByCodeMissesS8Uint()
    ensures CarriesStencil(S8Uint) && !StencilByCode(S8Uint)
  {
  }

  /** What the depth format decides downstream: the view's aspect mask, the
      pipeline's stencil attachment format, and whether rendering binds a
      stencil attachment. */
  datatype DepthSetup = DepthSetup(aspectMask: set<ImageAspect>, stencilFormat: Format, bindsStencilAttachment: bool)

  function DepthSetupFor(depthFormat: Format): (s: DepthSetup)
    requires depthFormat in DepthCandidates
    ensures AspectDepth in s.aspectMask && AspectColor !in s.aspectMask
    ensures AspectStencil in s.aspectMask <==> CarriesStencil(depthFormat)
    ensures s.stencilFormat == (if CarriesStencil(depthFormat) then depthFormat else FormatUndefined)
    ensures s.bindsStencilAttachment <==> CarriesStencil(depthFormat)
  {
    var stencil := StencilByCode(depthFormat);
    DepthSetup(
      aspectMask := if stencil then {AspectDepth, AspectStencil} else {AspectDepth},
      stencilFormat := if stencil then depthFormat else FormatUndefined,
      bindsStencilAttachment := stencil)
  }
}

=== FILE: frame_loop.dfy ===
/** The compute/blit renderer's frame loop: the ring of frame contexts, their
    creation, and one call of `render` as a trace of device calls.

    Two independent references judge the trace: a protocol automaton for the
    per-frame call order, and a replay of image layouts that checks every
    transition and every use of an image against the layout it is in. */
module FrameLoop {
  import opened Wrappers
  import opened VkTypes

  // ---------------------------------------------------------------------------
  // The frame ring
  // ---------------------------------------------------------------------------

  /** Number of frame contexts in flight. */
  const FrameOverlap: nat := 2

  /** `get_current_frame`: the context a frame number selects. */
  function FrameIndex(frameNumber: nat): (i: nat)
    ensures i < FrameOverlap
  {
    frameNumber % FrameOverlap
  }

  /** `frame_number++` on a 64-bit `size_t`. */
  function AdvanceFrame(frameNumber: nat): (n: nat)
    requires frameNumber < Uint64Modulus
    ensures n < Uint64Modulus
    ensures frameNumber + 1 < Uint64Modulus ==> n == frameNumber + 1
  {
    (frameNumber + 1) % Uint64Modulus
  }

  /** Frame numbers FRAME_OVERLAP apart share a context. */
  lemma SameContextAfterOverlap(n: nat)
    ensures FrameIndex(n + FrameOverlap) == FrameIndex(n)
  {
  }

  /** Consecutive frames use different contexts, even across the 64-bit wrap
      (2^64 is a multiple of FRAME_OVERLAP). */
  lemma ConsecutiveFramesDiffer(n: nat)
    requires n < Uint64Modulus
    ensures FrameIndex(AdvanceFrame(n)) != FrameIndex(n)
  {
    if n + 1 == Uint64Modulus {
      assert AdvanceFrame(n) == 0;
    }
  }

  /** The contexts used by `count` successive frames starting at `start`. */
  function Visits(start: nat, count: nat): (vs: seq<nat>)
    requires start < Uint64Modulus
    ensures |vs| == count
    decreases count
  {
    if count == 0 then [] else [FrameIndex(start)] + Visits(AdvanceFrame(start), count - 1)
  }

  /** Frames visit the contexts round-robin: 0, 1, 0, 1, ... from frame 0, and
      in general context (start + i) mod FRAME_OVERLAP at step i. */
  lemma {:induction false} VisitsRoundRobin(start: nat, count: nat)
    requires start < Uint64Modulus
    ensures forall i :: 0 <= i < count ==> Visits(start, count)[i] == (FrameIndex(start) + i) % FrameOverlap
    decreases count
  {
    if count > 0 {
      var next := AdvanceFrame(start);
      VisitsRoundRobin(next, count - 1);
      ConsecutiveFramesDiffer(start);
      assert FrameIndex(next) == (FrameIndex(start) + 1) % FrameOverlap;
      forall i | 0 <= i < count
        ensures Visits(start, count)[i] == (FrameIndex(start) + i) % FrameOverlap
      {
        if i > 0 {
          assert Visits(start, count)[i] == Visits(next, count - 1)[i - 1];
        }
      }
    }
  }

  // ---------------------------------------------------------------------------
  // Frame contexts and their creation
  // ---------------------------------------------------------------------------

  /** FrameData. */
  datatype FrameData = FrameData(
    commandPool: Handle,
    commandBuffer: Handle,
    swapchainSemaphore: Handle,
    renderSemaphore: Handle,
    renderFence: Handle)

  /** What the device knows about an object it created. */
  datatype DeviceObject =
    | Fence(signalled: bool)
    | Semaphore
    | CommandPool(buffers: seq<Handle>)
    | CommandBuffer(pool: Handle)

  /** The device's objects and its next fresh handle. */
  datatype Device = Device(objects: map<Handle, DeviceObject>, next: nat)

  predicate ValidDevice(d: Device) {
    d.next > 0 && forall h :: h in d.objects ==> h < d.next
  }

  /** The device keeps every object of `d` as it was. */
  ghost predicate Extends(d: Device, d': Device) {
    d.next <= d'.next && forall h :: h in d.objects ==> h in d'.objects && d'.objects[h] == d.objects[h]
  }

  /** `create_sync_structures`: per context, a fence created signalled and two
      semaphores. Nothing else in the context changes. */
  method CreateSyncStructures(frames: seq<FrameData>, d: Device) returns (out: seq<FrameData>, d': Device)
    requires ValidDevice(d)
    ensures ValidDevice(d') && Extends(d, d')
    ensures |out| == |frames|
    ensures forall i :: 0 <= i < |out| ==>
              && out[i].commandPool == frames[i].commandPool
              && out[i].commandBuffer == frames[i].commandBuffer
              && out[i].renderFence in d'.objects && d'.objects[out[i].renderFence] == Fence(true)
              && out[i].renderSemaphore in d'.objects && d'.objects[out[i].renderSemaphore] == Semaphore
              && out[i].swapchainSemaphore in d'.objects && d'.objects[out[i].swapchainSemaphore] == Semaphore
              && out[i].renderSemaphore != out[i].swapchainSemaphore
    ensures forall i :: 0 <= i < |out| ==>
              && d.next <= out[i].renderFence < d'.next
              && d.next <= out[i].renderSemaphore < d'.next
              && d.next <= out[i].swapchainSemaphore < d'.next
    ensures forall i, j :: 0 <= i < j < |out| ==>
              {out[i].renderFence, out[i].renderSemaphore, out[i].swapchainSemaphore}
              !! {out[j].renderFence, out[j].renderSemaphore, out[j].swapchainSemaphore}
  {
    out := [];
    d' := d;
    var k := 0;
    while k < |frames|
      invariant 0 <= k <= |frames| && |out| == k
      invariant ValidDevice(d') && Extends(d, d')
      invariant d'.next == d.next + 3 * k
      invariant forall i :: 0 <= i < k ==>
                  && out[i] == frames[i].(renderFence := d.next + 3 * i,
                                          renderSemaphore := d.next + 3 * i + 1,
                                          swapchainSemaphore := d.next + 3 * i + 2)
                  && out[i].renderFence in d'.objects && d'.objects[out[i].renderFence] == Fence(true)
                  && out[i].renderSemaphore in d'.objects && d'.objects[out[i].renderSemaphore] == Semaphore
                  && out[i].swapchainSemaphore in d'.objects && d'.objects[out[i].swapchainSemaphore] == Semaphore
    {
      var fence := d'.next;
      var render := d'.next + 1;
      var acquire := d'.next + 2;
      d' := Device(d'.objects[fence := Fence(true)][render := Semaphore][acquire := Semaphore], d'.next + 3);
      out := out + [frames[k].(renderFence := fence, renderSemaphore := render, swapchainSemaphore := acquire)];
      k := k + 1;
    }
  }

  /** `create_command_structures`: per context, one command pool and exactly
      one primary command buffer allocated from it. */
  method CreateCommandStructures(frames: seq<FrameData>, d: Device) returns (out: seq<FrameData>, d': Device)
    requires ValidDevice(d)
    ensures ValidDevice(d') && Extends(d, d')
    ensures |out| == |frames|
    ensures forall i :: 0 <= i < |out| ==>
              && out[i] == frames[i].(commandPool := out[i].commandPool, commandBuffer := out[i].commandBuffer)
              && out[i].commandPool in d'.objects && d'.objects[out[i].commandPool] == CommandPool([out[i].commandBuffer])
              && out[i].commandBuffer in d'.objects && d'.objects[out[i].commandBuffer] == CommandBuffer(out[i].commandPool)
    ensures forall i :: 0 <= i < |out| ==>
              && d.next <= out[i].commandPool < d'.next
              && d.next <= out[i].commandBuffer < d'.next
    ensures forall i, j :: 0 <= i < j < |out| ==>
              {out[i].commandPool, out[i].commandBuffer} !! {out[j].commandPool, out[j].commandBuffer}
  {
    out := [];
    d' := d;
    var k := 0;
    while k < |frames|
      invariant 0 <= k <= |frames| && |out| == k
      invariant ValidDevice(d') && Extends(d, d')
      invariant d'.next == d.next + 2 * k
      invariant forall i :: 0 <= i < k ==>
                  && out[i] == frames[i].(commandPool := d.next + 2 * i, commandBuffer := d.next + 2 * i + 1)
                  && out[i].commandPool in d'.objects && d'.objects[out[i].commandPool] == CommandPool([out[i].commandBuffer])
                  && out[i].commandBuffer in d'.objects && d'.objects[out[i].commandBuffer] == CommandBuffer(out[i].commandPool)
    {
      var pool := d'.next;
      var buffer := d'.next + 1;
      d' := Device(d'.objects[pool := CommandPool([buffer])][buffer := CommandBuffer(pool)], d'.next + 2);
      out := out + [frames[k].(commandPool := pool, commandBuffer := buffer)];
      k := k + 1;
    }
  }

  /** The five handles of a context. */
  function ContextHandles(f: FrameData): set<Handle> {
    {f.commandPool, f.commandBuffer, f.swapchainSemaphore, f.renderSemaphore, f.renderFence}
  }

  /** A context ready for its first frame: a signalled fence, two distinct
      semaphores, and a pool holding exactly its one command buffer. */
  ghost predicate ContextReady(d: Device, f: FrameData) {
    && f.renderFence in d.objects && d.objects[f.renderFence] == Fence(true)
    && f.swapchainSemaphore in d.objects && d.objects[f.swapchainSemaphore] == Semaphore
    && f.renderSemaphore in d.objects && d.objects[f.renderSemaphore] == Semaphore
    && f.swapchainSemaphore != f.renderSemaphore
    && f.commandPool in d.objects && d.objects[f.commandPool] == CommandPool([f.commandBuffer])
    && f.commandBuffer in d.objects && d.objects[f.commandBuffer] == CommandBuffer(f.commandPool)
  }

  /** No two contexts share a handle. */
  ghost predicate ContextsDisjoint(frames: seq<FrameData>) {
    forall i, j :: 0 <= i < j < |frames| ==> ContextHandles(frames[i]) !! ContextHandles(frames[j])
  }

  /** Renderer initialisation of the context array: sync objects, then command structures. */
  method InitFrameContexts(d: Device) returns (frames: seq<FrameData>, d': Device)
    requires ValidDevice(d)
    ensures ValidDevice(d') && Extends(d, d')
    ensures |frames| == FrameOverlap
    ensures forall i :: 0 <= i < |frames| ==> ContextReady(d', frames[i])
    ensures ContextsDisjoint(frames)
  {
    var zero := FrameData(NullHandle, NullHandle, NullHandle, NullHandle, NullHandle);
    var synced, d1 := CreateSyncStructures([zero, zero], d);
    frames, d' := CreateCommandStructures(synced, d1);
    forall i | 0 <= i < |frames| ensures ContextReady(d', frames[i]) {
      assert frames[i].renderFence == synced[i].renderFence;
    }
  }

  // ---------------------------------------------------------------------------
  // One frame as a trace of calls
  // ---------------------------------------------------------------------------

  datatype Call =
    | WaitForFence(waited: Handle)
    | ResetFence(reset: Handle)
    | AcquireNextImage(acquireFrom: Handle, signalOnAcquire: Handle)
    | ResetCommandBuffer(resetBuffer: Handle)
    | BeginCommandBuffer(begun: Handle)
    | TransitionImage(image: Handle, oldLayout: ImageLayout, newLayout: ImageLayout)
    | BindComputePipeline(computePipeline: Handle)
    | BindComputeDescriptorSet(computeLayout: Handle, descriptorSet: Handle)
    | Dispatch(storageImage: Handle, groupsX: nat, groupsY: nat)
    | BeginRendering(colorImage: Handle, attachmentLayout: ImageLayout)
    | BindGraphicsPipeline(graphicsPipeline: Handle)
    | SetViewport(viewportWidth: nat, viewportHeight: nat)
    | SetScissor(scissorWidth: nat, scissorHeight: nat)
    | Draw(vertexCount: nat)
    | EndRendering
    | BlitImage(src: Handle, dst: Handle, srcExtent: Extent2D, dstExtent: Extent2D)
    | EndCommandBuffer(ended: Handle)
    | Submit(submitted: Handle, waitSemaphore: Handle, signalSemaphore: Handle, signalFence: Handle)
    | Present(presentTo: Handle, presentWait: Handle, imageIndex: nat, presentedImage: Handle)
    | AdvanceFrameNumber

  /** The off-screen colour target: image, view and extent. */
  datatype DrawImage = DrawImage(image: Handle, view: Handle, extent: Extent2D)

  /** The renderer state `render` reads. */
  datatype Renderer = Renderer(
    frames: seq<FrameData>,
    frameNumber: nat,
    swapchain: Handle,
    swapchainImages: seq<Handle>,
    swapchainExtent: Extent2D,
    drawImage: DrawImage,
    drawImageSet: Handle,
    gradientLayout: Handle,
    gradientPipeline: Handle,
    trianglePipeline: Handle)

  predicate ValidRenderer(r: Renderer) {
    && |r.frames| == FrameOverlap
    && r.frameNumber < Uint64Modulus
    && r.drawImage.image !in r.swapchainImages
  }

  /** `get_current_frame`: one of the FRAME_OVERLAP contexts, chosen by the frame number. */
  function CurrentFrame(r: Renderer): (f: FrameData)
    requires ValidRenderer(r)
    ensures f in r.frames
    ensures f == r.frames[r.frameNumber % FrameOverlap]
  {
    r.frames[FrameIndex(r.frameNumber)]
  }

  /** Workgroups along one axis for a 16-wide compute tile: ceil(extent / 16). */
  function GroupCount(extent: nat): (g: nat)
    ensures g * 16 >= extent
    ensures extent > 0 ==> (g - 1) * 16 < extent
    ensures extent == 0 ==> g == 0
  {
    (extent + 15) / 16
  }

  /** `draw_background`: the gradient compute pass over the draw image. */
  function DrawBackground(r: Renderer): (calls: seq<Call>)
    ensures |calls| == 3 && calls[2].Dispatch? && calls[2].storageImage == r.drawImage.image
    ensures calls[2].groupsX * 16 >= r.drawImage.extent.width && calls[2].groupsY * 16 >= r.drawImage.extent.height
    ensures r.drawImage.extent.width > 0 ==> (calls[2].groupsX - 1) * 16 < r.drawImage.extent.width
    ensures r.drawImage.extent.height > 0 ==> (calls[2].groupsY - 1) * 16 < r.drawImage.extent.height
  {
    [ BindComputePipeline(r.gradientPipeline),
      BindComputeDescriptorSet(r.gradientLayout, r.drawImageSet),
      Dispatch(r.drawImage.image, GroupCount(r.drawImage.extent.width), GroupCount(r.drawImage.extent.height)) ]
  }

  /** `draw_geometry`, with the layout its colour attachment declares. */
  function DrawGeometry(r: Renderer, attachmentLayout: ImageLayout): (calls: seq<Call>)
    ensures |calls| == 6
    ensures calls[0] == BeginRendering(r.drawImage.image, attachmentLayout) && calls[5] == EndRendering
    ensures forall i :: 1 <= i < 5 ==> !calls[i].BeginRendering? && !calls[i].EndRendering? && !calls[i].TransitionImage?
    ensures Draw(3) in calls
    ensures SetViewport(r.drawImage.extent.width, r.drawImage.extent.height) in calls
    ensures SetScissor(r.drawImage.extent.width, r.drawImage.extent.height) in calls
  {
    var e := r.drawImage.extent;
    [ BeginRendering(r.drawImage.image, attachmentLayout),
      BindGraphicsPipeline(r.trianglePipeline),
      SetViewport(e.width, e.height),
      SetScissor(e.width, e.height),
      Draw(3),
      EndRendering ]
  }

  /** The layout the source's colour attachment declares. */
  const AsWrittenAttachmentLayout: ImageLayout := LayoutGeneral

  /** The layout the draw image is actually in during geometry. */
  const CorrectedAttachmentLayout: ImageLayout := LayoutColorAttachmentOptimal

  /** The commands recorded between begin and finish. */
  function RecordCommands(r: Renderer, imageIndex: nat, attachmentLayout: ImageLayout): (c: seq<Call>)
    requires imageIndex < |r.swapchainImages|
    ensures |c| == 15
    ensures forall i :: 0 <= i < |c| ==> IsRecordingCall(c[i])
    ensures forall i :: 0 <= i < |c| && c[i].TransitionImage? ==>
              c[i].image == r.drawImage.image || c[i].image == r.swapchainImages[imageIndex]
  {
    var draw := r.drawImage.image;
    var target := r.swapchainImages[imageIndex];
    [TransitionImage(draw, LayoutUndefined, LayoutGeneral)]
    + DrawBackground(r)
    + [TransitionImage(draw, LayoutGeneral, LayoutColorAttachmentOptimal)]
    + DrawGeometry(r, attachmentLayout)
    + [ TransitionImage(draw, LayoutColorAttachmentOptimal, LayoutTransferSrcOptimal),
        TransitionImage(target, LayoutUndefined, LayoutTransferDstOptimal),
        BlitImage(draw, target, r.drawImage.extent, r.swapchainExtent),
        TransitionImage(target, LayoutTransferDstOptimal, LayoutPresentSrc) ]
  }

  /** Acquire asserts SUCCESS or SUBOPTIMAL. */
  predicate AcquireAccepted(res: VkResult) {
    res == Success || res == Suboptimal
  }

  datatype FrameOutcome = Presented(after: Renderer) | Aborted(failure: VkResult)

  /** What the driver answers during one `render`: the results of acquire,
      `vkBeginCommandBuffer`, `vkEndCommandBuffer`, submit and present, and
      the acquired image index. */
  datatype DriverAnswers = DriverAnswers(
    acquired: VkResult, imageIndex: nat, begun: VkResult, ended: VkResult, submitted: VkResult, presented: VkResult)

  /** Every call succeeds and the swapchain hands out image `imageIndex`. */
  function AllSucceed(imageIndex: nat): DriverAnswers {
    DriverAnswers(Success, imageIndex, Success, Success, Success, Success)
  }

  /** `render`, with the layout `draw_geometry` declares for its colour
      attachment as a parameter: `AsWrittenAttachmentLayout` is the source's
      frame, `CorrectedAttachmentLayout` the intended one. A result an
      assertion rejects ends the trace at the call that produced it. */
  function Render(r: Renderer, attachmentLayout: ImageLayout, a: DriverAnswers): (out: (seq<Call>, FrameOutcome))
    requires ValidRenderer(r)
    requires AcquireAccepted(a.acquired) ==> a.imageIndex < |r.swapchainImages|
    ensures out.1.Presented? <==>
              && AcquireAccepted(a.acquired) && a.begun == Success && a.ended == Success
              && a.submitted == Success && a.presented == Success
    ensures out.1.Aborted? ==> out.1.failure != Success
    ensures |out.0| >= 3 && out.0[0] == WaitForFence(CurrentFrame(r).renderFence)
    ensures out.1.Presented? ==> out.1.after.frameNumber == AdvanceFrame(r.frameNumber)
  {
    var f := CurrentFrame(r);
    var prologue := [WaitForFence(f.renderFence), ResetFence(f.renderFence), AcquireNextImage(r.swapchain, f.swapchainSemaphore)];
    if !AcquireAccepted(a.acquired) then (prologue, Aborted(a.acquired))
    else
      var begin := prologue + [ResetCommandBuffer(f.commandBuffer), BeginCommandBuffer(f.commandBuffer)];
      if a.begun != Success then (begin, Aborted(a.begun))
      else
        var record := begin + RecordCommands(r, a.imageIndex, attachmentLayout) + [EndCommandBuffer(f.commandBuffer)];
        if a.ended != Success then (record, Aborted(a.ended))
        else
          var submit := record + [Submit(f.commandBuffer, f.swapchainSemaphore, f.renderSemaphore, f.renderFence)];
          if a.submitted != Success then (submit, Aborted(a.submitted))
          else
            var present := submit + [Present(r.swapchain, f.renderSemaphore, a.imageIndex, r.swapchainImages[a.imageIndex])];
            if a.presented != Success then (present, Aborted(a.presented))
            else (present + [AdvanceFrameNumber], Presented(r.(frameNumber := AdvanceFrame(r.frameNumber))))
  }

  // ---------------------------------------------------------------------------
  // Reference 1: the per-frame protocol
  // ---------------------------------------------------------------------------

  datatype Phase = Idle | Waited | FenceReset | Acquired | BufferReset | Recording | Recorded | Submitted | PresentDone

  /** Calls allowed while a command buffer is recording. */
  predicate IsRecordingCall(c: Call) {
    || c.TransitionImage? || c.BindComputePipeline? || c.BindComputeDescriptorSet? || c.Dispatch?
    || c.BeginRendering? || c.BindGraphicsPipeline? || c.SetViewport? || c.SetScissor?
    || c.Draw? || c.EndRendering? || c.BlitImage?
  }

  /** The protocol: wait, reset fence, acquire, reset and begin the buffer,
      record, end, submit, present, advance. */
  function ProtocolStep(p: Phase, c: Call): Option<Phase> {
    match p
    case Idle => if c.WaitForFence? then Some(Waited) else None
    case Waited => if c.ResetFence? then Some(FenceReset) else None
    case FenceReset => if c.AcquireNextImage? then Some(Acquired) else None
    case Acquired => if c.ResetCommandBuffer? then Some(BufferReset) else None
    case BufferReset => if c.BeginCommandBuffer? then Some(Recording) else None
    case Recording =>
      if IsRecordingCall(c) then Some(Recording)
      else if c.EndCommandBuffer? then Some(Recorded)
      else None
    case Recorded => if c.Submit? then Some(Submitted) else None
    case Submitted => if c.Present? then Some(PresentDone) else None
    case PresentDone => if c.AdvanceFrameNumber? then Some(Idle) else None
  }

  function RunProtocol(p: Phase, calls: seq<Call>): Option<Phase>
    decreases |calls|
  {
    if |calls| == 0 then Some(p)
    else match ProtocolStep(p, calls[0])
      case None => None
      case Some(q) => RunProtocol(q, calls[1..])
  }

  lemma {:induction false} RunProtocolAppend(p: Phase, a: seq<Call>, b: seq<Call>)
    requires RunProtocol(p, a).Some?
    ensures RunProtocol(p, a + b) == RunProtocol(RunProtocol(p, a).value, b)
    decreases |a|
  {
    if |a| == 0 {
      assert a + b == b;
    } else {
      assert (a + b)[1..] == a[1..] + b;
      RunProtocolAppend(ProtocolStep(p, a[0]).value, a[1..], b);
    }
  }

  lemma {:induction false} RecordingCallsStayRecording(calls: seq<Call>)
    requires forall i :: 0 <= i < |calls| ==> IsRecordingCall(calls[i])
    ensures RunProtocol(Recording, calls) == Some(Recording)
    decreases |calls|
  {
    if |calls| > 0 {
      RecordingCallsStayRecording(calls[1..]);
    }
  }

  /** A complete frame runs the protocol from Idle back to Idle; an aborted
      frame stops part-way, in a phase other than Idle. This holds whatever
      layout the geometry pass declares. */
  lemma RenderFollowsProtocol(r: Renderer, attachmentLayout: ImageLayout, a: DriverAnswers)
    requires ValidRenderer(r)
    requires AcquireAccepted(a.acquired) ==> a.imageIndex < |r.swapchainImages|
    ensures var out := Render(r, attachmentLayout, a);
            && (out.1.Presented? ==> RunProtocol(Idle, out.0) == Some(Idle))
            && (out.1.Aborted? ==> RunProtocol(Idle, out.0).Some? && RunProtocol(Idle, out.0) != Some(Idle))
  {
    var f := CurrentFrame(r);
    var prologue := [WaitForFence(f.renderFence), ResetFence(f.renderFence), AcquireNextImage(r.swapchain, f.swapchainSemaphore)];
    assert RunProtocol(FenceReset, prologue[2..]) == Some(Acquired);
    assert RunProtocol(Waited, prologue[1..]) == Some(Acquired);
    assert RunProtocol(Idle, prologue) == Some(Acquired);
    if AcquireAccepted(a.acquired) {
      var head := [ResetCommandBuffer(f.commandBuffer), BeginCommandBuffer(f.commandBuffer)];
      assert RunProtocol(BufferReset, head[1..]) == Some(Recording);
      assert RunProtocol(Acquired, head) == Some(Recording);
      RunProtocolAppend(Idle, prologue, head);
      var begin := prologue + head;
      if a.begun == Success {
        var body := RecordCommands(r, a.imageIndex, attachmentLayout);
        RecordingCallsStayRecording(body);
        RunProtocolAppend(Idle, begin, body);
        RunProtocolAppend(Idle, begin + body, [EndCommandBuffer(f.commandBuffer)]);
        var record := begin + body + [EndCommandBuffer(f.commandBuffer)];
        assert RunProtocol(Idle, record) == Some(Recorded);
        if a.ended == Success {
          var submit := [Submit(f.commandBuffer, f.swapchainSemaphore, f.renderSemaphore, f.renderFence)];
          RunProtocolAppend(Idle, record, submit);
          if a.submitted == Success {
            var present := [Present(r.swapchain, f.renderSemaphore, a.imageIndex, r.swapchainImages[a.imageIndex])];
            RunProtocolAppend(Idle, record + submit, present);
            if a.presented == Success {
              RunProtocolAppend(Idle, record + submit + present, [AdvanceFrameNumber]);
            }
          }
        }
      }
    }
  }

  // ---------------------------------------------------------------------------
  // Reference 2: image layouts
  // ---------------------------------------------------------------------------

  /** Known layouts of images; an image missing from the map has unknown contents. */
  type Layouts = map<Handle, ImageLayout>

  predicate InLayout(m: Layouts, image: Handle, layout: ImageLayout) {
    image in m && m[image] == layout
  }

  /** The layout an image is in; an image with no known layout is UNDEFINED. */
  function CurrentLayout(m: Layouts, image: Handle): ImageLayout {
    if image in m then m[image] else LayoutUndefined
  }

  /** How transitions are judged. Under the Vulkan rule a transition from
      UNDEFINED is always allowed (it discards the contents) and any other must
      name the layout the image is in. The chain rule is stricter: every
      transition names the layout the image is in, so each old layout is the
      previous new layout. */
  datatype TransitionRule = VulkanRule | ChainRule

  predicate TransitionAllowed(rule: TransitionRule, m: Layouts, image: Handle, from: ImageLayout) {
    match rule
    case VulkanRule => from == LayoutUndefined || InLayout(m, image, from)
    case ChainRule => from == CurrentLayout(m, image)
  }

  /** One call against the known layouts. Dispatches use the draw image as a
      storage image in GENERAL, rendering uses it in the layout the attachment
      declares, a blit needs TRANSFER_SRC and TRANSFER_DST, and presenting
      needs PRESENT_SRC. */
  function LayoutStep(rule: TransitionRule, m: Layouts, c: Call): Option<Layouts> {
    match c
    case TransitionImage(img, from, to) =>
      if TransitionAllowed(rule, m, img, from) then Some(m[img := to]) else None
    case Dispatch(img, _, _) => if InLayout(m, img, LayoutGeneral) then Some(m) else None
    case BeginRendering(img, layout) => if InLayout(m, img, layout) then Some(m) else None
    case BlitImage(src, dst, _, _) =>
      if InLayout(m, src, LayoutTransferSrcOptimal) && InLayout(m, dst, LayoutTransferDstOptimal) then Some(m) else None
    case Present(_, _, _, img) => if InLayout(m, img, LayoutPresentSrc) then Some(m) else None
    case _ => Some(m)
  }

  /** Replays `calls[k..]`; None at the first call whose image is in the wrong layout. */
  function ReplayFrom(rule: TransitionRule, m: Layouts, calls: seq<Call>, k: nat): Option<Layouts>
    requires k <= |calls|
    decreases |calls| - k
  {
    if k == |calls| then Some(m)
    else match LayoutStep(rule, m, calls[k])
      case None => None
      case Some(m') => ReplayFrom(rule, m', calls, k + 1)
  }

  function ReplayLayouts(rule: TransitionRule, m: Layouts, calls: seq<Call>): Option<Layouts> {
    ReplayFrom(rule, m, calls, 0)
  }

  /** The recording, call by call. */
  lemma RecordCommandsUnfold(r: Renderer, imageIndex: nat, attachmentLayout: ImageLayout)
    requires imageIndex < |r.swapchainImages|
    ensures var draw := r.drawImage.image;
            var target := r.swapchainImages[imageIndex];
            var e := r.drawImage.extent;
            RecordCommands(r, imageIndex, attachmentLayout)
            == [ TransitionImage(draw, LayoutUndefined, LayoutGeneral),
                 BindComputePipeline(r.gradientPipeline),
                 BindComputeDescriptorSet(r.gradientLayout, r.drawImageSet),
                 Dispatch(draw, GroupCount(e.width), GroupCount(e.height)),
                 TransitionImage(draw, LayoutGeneral, LayoutColorAttachmentOptimal),
                 BeginRendering(draw, attachmentLayout),
                 BindGraphicsPipeline(r.trianglePipeline),
                 SetViewport(e.width, e.height),
                 SetScissor(e.width, e.height),
                 Draw(3),
                 EndRendering,
                 TransitionImage(draw, LayoutColorAttachmentOptimal, LayoutTransferSrcOptimal),
                 TransitionImage(target, LayoutUndefined, LayoutTransferDstOptimal),
                 BlitImage(draw, target, e, r.swapchainExtent),
                 TransitionImage(target, LayoutTransferDstOptimal, LayoutPresentSrc) ]
  {
  }

  /** Calls that find their images as they need them and change nothing. */
  lemma {:induction false} ReplayPassive(rule: TransitionRule, m: Layouts, c: seq<Call>, i: nat, j: nat)
    requires i <= j <= |c|
    requires forall k :: i <= k < j ==> LayoutStep(rule, m, c[k]) == Some(m)
    ensures ReplayFrom(rule, m, c, i) == ReplayFrom(rule, m, c, j)
    decreases j - i
  {
    if i < j {
      ReplayPassive(rule, m, c, i + 1, j);
    }
  }

  /** The last four recorded calls: hand the draw image over as a blit source,
      the swapchain image as destination, blit, and move it to PRESENT_SRC. */
  lemma ReplayBlitTail(rule: TransitionRule, m: Layouts, c: seq<Call>, draw: Handle, target: Handle)
    requires |c| == 15 && draw != target
    requires rule == ChainRule ==> target !in m
    requires InLayout(m, draw, LayoutColorAttachmentOptimal)
    requires c[11] == TransitionImage(draw, LayoutColorAttachmentOptimal, LayoutTransferSrcOptimal)
    requires c[12] == TransitionImage(target, LayoutUndefined, LayoutTransferDstOptimal)
    requires c[13].BlitImage? && c[13].src == draw && c[13].dst == target
    requires c[14] == TransitionImage(target, LayoutTransferDstOptimal, LayoutPresentSrc)
    ensures ReplayFrom(rule, m, c, 11) == Some(m[draw := LayoutTransferSrcOptimal][target := LayoutPresentSrc])
  {
    var m3 := m[draw := LayoutTransferSrcOptimal];
    var m4 := m3[target := LayoutTransferDstOptimal];
    var m5 := m4[target := LayoutPresentSrc];
    assert ReplayFrom(rule, m4, c, 14) == Some(m5);
    assert ReplayFrom(rule, m4, c, 13) == Some(m5);
    assert ReplayFrom(rule, m3, c, 12) == Some(m5);
    assert m5 == m[draw := LayoutTransferSrcOptimal][target := LayoutPresentSrc];
  }

  /** With the attachment declared COLOR_ATTACHMENT_OPTIMAL every use of an
      image finds it in the layout it needs, whatever layouts were known
      before; the frame leaves the draw image in TRANSFER_SRC and the swapchain
      image in PRESENT_SRC, and no other image changes. Starting from images
      with no known layout, the transitions also form unbroken chains: the
      draw image UNDEFINED, GENERAL, COLOR_ATTACHMENT_OPTIMAL, TRANSFER_SRC and
      the swapchain image UNDEFINED, TRANSFER_DST, PRESENT_SRC. */
  lemma RecordedLayoutsConsistent(rule: TransitionRule, r: Renderer, imageIndex: nat, start: Layouts)
    requires imageIndex < |r.swapchainImages|
    requires r.drawImage.image !in r.swapchainImages
    requires rule == ChainRule ==> r.drawImage.image !in start && r.swapchainImages[imageIndex] !in start
    ensures ReplayLayouts(rule, start, RecordCommands(r, imageIndex, CorrectedAttachmentLayout))
            == Some(start[r.drawImage.image := LayoutTransferSrcOptimal][r.swapchainImages[imageIndex] := LayoutPresentSrc])
  {
    var draw := r.drawImage.image;
    var target := r.swapchainImages[imageIndex];
    assert draw != target;
    var c := RecordCommands(r, imageIndex, CorrectedAttachmentLayout);
    RecordCommandsUnfold(r, imageIndex, CorrectedAttachmentLayout);
    var m2 := start[draw := LayoutColorAttachmentOptimal];
    assert start[draw := LayoutGeneral][draw := LayoutColorAttachmentOptimal] == m2;
    ReplayBackground(rule, r, imageIndex, start);
    ReplayGeometry(rule, r, imageIndex, m2);
    ReplayBlitTail(rule, m2, c, draw, target);
    assert m2[draw := LayoutTransferSrcOptimal] == start[draw := LayoutTransferSrcOptimal];
  }

  /** Calls 0 to 4: the draw image into GENERAL, the compute pass, and on to
      COLOR_ATTACHMENT_OPTIMAL. */
  lemma ReplayBackground(rule: TransitionRule, r: Renderer, imageIndex: nat, start: Layouts)
    requires imageIndex < |r.swapchainImages|
    requires rule == ChainRule ==> r.drawImage.image !in start
    ensures var c := RecordCommands(r, imageIndex, CorrectedAttachmentLayout);
            ReplayFrom(rule, start, c, 0)
            == ReplayFrom(rule, start[r.drawImage.image := LayoutGeneral][r.drawImage.image := LayoutColorAttachmentOptimal], c, 5)
  {
    var draw := r.drawImage.image;
    var c := RecordCommands(r, imageIndex, CorrectedAttachmentLayout);
    RecordCommandsUnfold(r, imageIndex, CorrectedAttachmentLayout);
    var m1 := start[draw := LayoutGeneral];
    ReplayPassive(rule, m1, c, 1, 4);
  }

  /** Calls 5 to 10: the geometry pass, with the draw image in the layout its
      attachment declares. */
  lemma ReplayGeometry(rule: TransitionRule, r: Renderer, imageIndex: nat, m: Layouts)
    requires imageIndex < |r.swapchainImages|
    requires InLayout(m, r.drawImage.image, LayoutColorAttachmentOptimal)
    ensures var c := RecordCommands(r, imageIndex, CorrectedAttachmentLayout);
            ReplayFrom(rule, m, c, 5) == ReplayFrom(rule, m, c, 11)
  {
    var c := RecordCommands(r, imageIndex, CorrectedAttachmentLayout);
    RecordCommandsUnfold(r, imageIndex, CorrectedAttachmentLayout);
    ReplayPassive(rule, m, c, 5, 11);
  }

  /** The source's geometry pass declares its colour attachment GENERAL while
      the image was just moved to COLOR_ATTACHMENT_OPTIMAL, so the replay
      rejects the recording at BeginRendering under either rule. */
  lemma AsWrittenAttachmentLayoutMismatch(rule: TransitionRule, r: Renderer, imageIndex: nat, start: Layouts)
    requires imageIndex < |r.swapchainImages|
    requires rule == ChainRule ==> r.drawImage.image !in start
    ensures ReplayLayouts(rule, start, RecordCommands(r, imageIndex, AsWrittenAttachmentLayout)) == None
  {
    var draw := r.drawImage.image;
    var c := RecordCommands(r, imageIndex, AsWrittenAttachmentLayout);
    RecordCommandsUnfold(r, imageIndex, AsWrittenAttachmentLayout);
    var m1 := start[draw := LayoutGeneral];
    var m2 := m1[draw := LayoutColorAttachmentOptimal];
    assert !InLayout(m2, draw, LayoutGeneral);
    assert ReplayFrom(rule, m2, c, 5) == None;
    assert ReplayFrom(rule, m1, c, 4) == None;
    ReplayPassive(rule, m1, c, 1, 4);
  }

  lemma {:induction false} ReplayFromAppend(rule: TransitionRule, m: Layouts, a: seq<Call>, b: seq<Call>, k: nat)
    requires k <= |a|
    ensures ReplayFrom(rule, m, a + b, k)
            == match ReplayFrom(rule, m, a, k)
               case None => None
               case Some(m') => ReplayFrom(rule, m', b, 0)
    decreases |a| - k
  {
    if k == |a| {
      assert (a + b)[k..] == b;
      ReplayFromShift(rule, m, a + b, b, k);
    } else {
      assert (a + b)[k] == a[k];
      match LayoutStep(rule, m, a[k])
      case None =>
      case Some(m') => ReplayFromAppend(rule, m', a, b, k + 1);
    }
  }

  /** Replaying from position `k` is replaying the suffix from there. */
  lemma {:induction false} ReplayFromShift(rule: TransitionRule, m: Layouts, c: seq<Call>, suffix: seq<Call>, k: nat)
    requires k <= |c| && c[k..] == suffix
    ensures ReplayFrom(rule, m, c, k) == ReplayFrom(rule, m, suffix, 0)
    decreases |c| - k
  {
    if k < |c| {
      assert suffix[0] == c[k];
      assert c[k + 1..] == suffix[1..];
      match LayoutStep(rule, m, c[k])
      case None =>
      case Some(m') =>
        ReplayFromShift(rule, m', c, suffix[1..], k + 1);
        ReplayFromShift(rule, m', suffix, suffix[1..], 1);
    }
  }

  function ReplayThen(rule: TransitionRule, first: Option<Layouts>, calls: seq<Call>): Option<Layouts> {
    match first
    case None => None
    case Some(m) => ReplayLayouts(rule, m, calls)
  }

  lemma ReplayAppend(rule: TransitionRule, m: Layouts, a: seq<Call>, b: seq<Call>)
    ensures ReplayLayouts(rule, m, a + b) == ReplayThen(rule, ReplayLayouts(rule, m, a), b)
  {
    ReplayFromAppend(rule, m, a, b, 0);
  }

  /** Calls that touch no image. */
  lemma ReplayNoImages(rule: TransitionRule, m: Layouts, calls: seq<Call>)
    requires forall i :: 0 <= i < |calls| ==>
               !calls[i].TransitionImage? && !calls[i].Dispatch? && !calls[i].BeginRendering?
               && !calls[i].BlitImage? && !calls[i].Present?
    ensures ReplayLayouts(rule, m, calls) == Some(m)
  {
    ReplayPassive(rule, m, calls, 0, |calls|);
  }

  /** A presented frame with the corrected attachment layout, replayed whole:
      the swapchain image is in PRESENT_SRC when it is presented, the draw
      image ends as a blit source, and no other image changes. */
  lemma PresentedFrameLayoutsConsistent(r: Renderer, imageIndex: nat, start: Layouts)
    requires ValidRenderer(r) && imageIndex < |r.swapchainImages|
    ensures var out := Render(r, CorrectedAttachmentLayout, AllSucceed(imageIndex));
            && out.1.Presented?
            && ReplayLayouts(VulkanRule, start, out.0)
               == Some(start[r.drawImage.image := LayoutTransferSrcOptimal][r.swapchainImages[imageIndex] := LayoutPresentSrc])
  {
    var f := CurrentFrame(r);
    var final := start[r.drawImage.image := LayoutTransferSrcOptimal][r.swapchainImages[imageIndex] := LayoutPresentSrc];
    var prologue := [WaitForFence(f.renderFence), ResetFence(f.renderFence), AcquireNextImage(r.swapchain, f.swapchainSemaphore)];
    var head := [ResetCommandBuffer(f.commandBuffer), BeginCommandBuffer(f.commandBuffer)];
    var body := RecordCommands(r, imageIndex, CorrectedAttachmentLayout);
    var tail := [EndCommandBuffer(f.commandBuffer), Submit(f.commandBuffer, f.swapchainSemaphore, f.renderSemaphore, f.renderFence)];
    var present := [Present(r.swapchain, f.renderSemaphore, imageIndex, r.swapchainImages[imageIndex]), AdvanceFrameNumber];
    var trace := Render(r, CorrectedAttachmentLayout, AllSucceed(imageIndex)).0;
    assert trace == (prologue + head) + body + tail + present;
    ReplayNoImages(VulkanRule, start, prologue + head);
    RecordedLayoutsConsistent(VulkanRule, r, imageIndex, start);
    ReplayAppend(VulkanRule, start, prologue + head, body);
    ReplayNoImages(VulkanRule, final, tail);
    ReplayAppend(VulkanRule, start, (prologue + head) + body, tail);
    assert InLayout(final, r.swapchainImages[imageIndex], LayoutPresentSrc);
    assert ReplayFrom(VulkanRule, final, present, 1) == Some(final);
    ReplayAppend(VulkanRule, start, (prologue + head) + body + tail, present);
  }

  /** The frame the source records, replayed whole, is rejected: whatever
      layouts the images start in, the geometry pass's GENERAL attachment
      does not match the COLOR_ATTACHMENT_OPTIMAL draw image. */
  lemma AsWrittenFrameLayoutsRejected(r: Renderer, imageIndex: nat, start: Layouts)
    requires ValidRenderer(r) && imageIndex < |r.swapchainImages|
    ensures var out := Render(r, AsWrittenAttachmentLayout, AllSucceed(imageIndex));
            && out.1.Presented?
            && ReplayLayouts(VulkanRule, start, out.0) == None
  {
    var f := CurrentFrame(r);
    var prologue := [WaitForFence(f.renderFence), ResetFence(f.renderFence), AcquireNextImage(r.swapchain, f.swapchainSemaphore)];
    var head := [ResetCommandBuffer(f.commandBuffer), BeginCommandBuffer(f.commandBuffer)];
    var body := RecordCommands(r, imageIndex, AsWrittenAttachmentLayout);
    var rest := [EndCommandBuffer(f.commandBuffer), Submit(f.commandBuffer, f.swapchainSemaphore, f.renderSemaphore, f.renderFence),
                 Present(r.swapchain, f.renderSemaphore, imageIndex, r.swapchainImages[imageIndex]), AdvanceFrameNumber];
    var trace := Render(r, AsWrittenAttachmentLayout, AllSucceed(imageIndex)).0;
    assert trace == (prologue + head) + body + rest;
    ReplayNoImages(VulkanRule, start, prologue + head);
    AsWrittenAttachmentLayoutMismatch(VulkanRule, r, imageIndex, start);
    ReplayAppend(VulkanRule, start, prologue + head, body);
    ReplayAppend(VulkanRule, start, (prologue + head) + body, rest);
  }

  // ---------------------------------------------------------------------------
  // Frame-context discipline
  // ---------------------------------------------------------------------------

  /** A call touches only the synchronisation objects and command buffer of `f`. */
  predicate UsesContext(c: Call, f: FrameData) {
    match c
    case WaitForFence(h) => h == f.renderFence
    case ResetFence(h) => h == f.renderFence
    case AcquireNextImage(_, s) => s == f.swapchainSemaphore
    case ResetCommandBuffer(b) => b == f.commandBuffer
    case BeginCommandBuffer(b) => b == f.commandBuffer
    case EndCommandBuffer(b) => b == f.commandBuffer
    case Submit(b, w, s, fence) =>
      b == f.commandBuffer && w == f.swapchainSemaphore && s == f.renderSemaphore && fence == f.renderFence
    case Present(_, w, _, _) => w == f.renderSemaphore
    case _ => true
  }

  /** Every call of `calls` keeps to the context `f` and none advances the frame number. */
  ghost predicate StaysInContext(calls: seq<Call>, f: FrameData) {
    forall i :: 0 <= i < |calls| ==> UsesContext(calls[i], f) && !calls[i].AdvanceFrameNumber?
  }

  /** Every fence, semaphore and command buffer of one `render` comes from the
      context selected by the frame number at entry; the frame number moves
      only at the last call of a presented frame, and by one. */
  lemma RenderUsesOneContext(r: Renderer, attachmentLayout: ImageLayout, a: DriverAnswers)
    requires ValidRenderer(r)
    requires AcquireAccepted(a.acquired) ==> a.imageIndex < |r.swapchainImages|
    ensures var out := Render(r, attachmentLayout, a);
            && (forall i :: 0 <= i < |out.0| ==> UsesContext(out.0[i], CurrentFrame(r)))
            && (forall i :: 0 <= i < |out.0| - 1 ==> !out.0[i].AdvanceFrameNumber?)
            && (out.1.Aborted? ==> forall i :: 0 <= i < |out.0| ==> !out.0[i].AdvanceFrameNumber?)
            && (out.1.Presented? ==>
                  && out.0[|out.0| - 1] == AdvanceFrameNumber
                  && out.1.after == r.(frameNumber := AdvanceFrame(r.frameNumber)))
  {
    var f := CurrentFrame(r);
    var prologue := [WaitForFence(f.renderFence), ResetFence(f.renderFence), AcquireNextImage(r.swapchain, f.swapchainSemaphore)];
    assert StaysInContext(prologue, f);
    if AcquireAccepted(a.acquired) {
      var begin := prologue + [ResetCommandBuffer(f.commandBuffer), BeginCommandBuffer(f.commandBuffer)];
      assert StaysInContext(begin, f);
      if a.begun == Success {
        var body := RecordCommands(r, a.imageIndex, attachmentLayout);
        assert StaysInContext(body, f);
        var record := begin + body + [EndCommandBuffer(f.commandBuffer)];
        assert StaysInContext(record, f);
        var submit := record + [Submit(f.commandBuffer, f.swapchainSemaphore, f.renderSemaphore, f.renderFence)];
        assert StaysInContext(submit, f);
        if a.ended == Success && a.submitted == Success {
          var present := submit + [Present(r.swapchain, f.renderSemaphore, a.imageIndex, r.swapchainImages[a.imageIndex])];
          assert StaysInContext(present, f);
        }
      }
    }
  }

  /** The frame FRAME_OVERLAP frames later reuses the context, and its first
      call waits on the fence this frame's submit signals. */
  lemma ReuseWaitsOnSubmittedFence(r: Renderer, attachmentLayout: ImageLayout, imageIndex: nat, later: nat)
    requires ValidRenderer(r) && imageIndex < |r.swapchainImages|
    requires later < |r.swapchainImages|
    ensures var first := Render(r, attachmentLayout, AllSucceed(imageIndex));
            var second := Render(first.1.after, attachmentLayout, AllSucceed(later));
            var third := Render(second.1.after, attachmentLayout, AllSucceed(later));
            && FrameIndex(second.1.after.frameNumber) == FrameIndex(r.frameNumber)
            && FrameIndex(first.1.after.frameNumber) != FrameIndex(r.frameNumber)
            && third.0[0] == WaitForFence(CurrentFrame(r).renderFence)
            && exists i :: 0 <= i < |first.0| && first.0[i].Submit? && first.0[i].signalFence == CurrentFrame(r).renderFence
  {
    var first := Render(r, attachmentLayout, AllSucceed(imageIndex));
    var r1 := first.1.after;
    ConsecutiveFramesDiffer(r.frameNumber);
    var second := Render(r1, attachmentLayout, AllSucceed(later));
    ConsecutiveFramesDiffer(r1.frameNumber);
    var r2 := second.1.after;
    assert FrameIndex(r2.frameNumber) == FrameIndex(r.frameNumber);
    var k := |first.0| - 3;
    assert first.0[k].Submit?;
  }
}

=== FILE: gltf_loader.dfy ===
/** `load_gltf_meshes`: every mesh of a parsed glTF document becomes one asset
    whose primitives are merged into a single index buffer and a single vertex
    buffer, with one surface per primitive recording where its indices start. */
module GltfLoader {
  import opened Wrappers
  import opened VkTypes

  datatype Vec2 = Vec2(x: real, y: real)
  datatype Vec3 = Vec3(x: real, y: real, z: real)
  datatype Vec4 = Vec4(x: real, y: real, z: real, w: real)

  datatype Vertex = Vertex(position: Vec3, uvX: real, normal: Vec3, uvY: real, color: Vec4)

  /** A primitive as the parser hands it over: the elements of its index
      accessor (if it has one) and of its POSITION, NORMAL, TEXCOORD_0 and
      COLOR_0 accessors. */
  datatype Primitive = Primitive(
    indices: Option<seq<nat>>,
    positions: seq<Vec3>,
    normals: Option<seq<Vec3>>,
    texcoords: Option<seq<Vec2>>,
    colors: Option<seq<Vec4>>)

  datatype Mesh = Mesh(name: string, primitives: seq<Primitive>)

  datatype Document = Document(meshes: seq<Mesh>)

  datatype Surface = Surface(startIndex: Uint32, count: Uint32)

  /** One loaded asset: its name, its surfaces, and the buffers handed to
      `create_mesh` for upload. */
  datatype Asset = Asset(name: string, surfaces: seq<Surface>, indices: seq<Uint32>, vertices: seq<Vertex>)

  datatype LoadError =
    | ParseFailed     // the parse assertion fails
    | MissingIndices  // `indicesAccessor.value()` on a primitive without indices throws

  /** What the loader relies on without checking: a primitive has a POSITION
      accessor (it is dereferenced unconditionally), no other attribute has
      more elements than POSITION (they are written at the same offsets), and
      index elements are 32-bit. */
  predicate WellFormedPrimitive(p: Primitive) {
    && (p.normals.Some? ==> |p.normals.value| <= |p.positions|)
    && (p.texcoords.Some? ==> |p.texcoords.value| <= |p.positions|)
    && (p.colors.Some? ==> |p.colors.value| <= |p.positions|)
    && (p.indices.Some? ==> forall j :: 0 <= j < |p.indices.value| ==> p.indices.value[j] < Uint32Modulus)
  }

  predicate WellFormedPrimitives(ps: seq<Primitive>) {
    forall k :: 0 <= k < |ps| ==> WellFormedPrimitive(ps[k])
  }

  predicate WellFormedDocument(d: Document) {
    forall m :: 0 <= m < |d.meshes| ==> WellFormedPrimitives(d.meshes[m].primitives)
  }

  // ---------------------------------------------------------------------------
  // Vertices of one primitive
  // ---------------------------------------------------------------------------

  const DefaultNormal := Vec3(1.0, 0.0, 0.0)
  const DefaultColor := Vec4(1.0, 1.0, 1.0, 1.0)

  /** The POSITION pass: one vertex per position, with default attributes. */
  function PositionPass(positions: seq<Vec3>): (vs: seq<Vertex>)
    ensures |vs| == |positions|
  {
    seq(|positions|, i requires 0 <= i < |positions| => Vertex(positions[i], 0.0, DefaultNormal, 0.0, DefaultColor))
  }

  function NormalPass(vs: seq<Vertex>, normals: Option<seq<Vec3>>): (r: seq<Vertex>)
    requires normals.Some? ==> |normals.value| <= |vs|
    ensures |r| == |vs|
  {
    match normals
    case None => vs
    case Some(ns) => seq(|vs|, i requires 0 <= i < |vs| => if i < |ns| then vs[i].(normal := ns[i]) else vs[i])
  }

  function TexcoordPass(vs: seq<Vertex>, uvs: Option<seq<Vec2>>): (r: seq<Vertex>)
    requires uvs.Some? ==> |uvs.value| <= |vs|
    ensures |r| == |vs|
  {
    match uvs
    case None => vs
    case Some(ts) => seq(|vs|, i requires 0 <= i < |vs| => if i < |ts| then vs[i].(uvX := ts[i].x, uvY := ts[i].y) else vs[i])
  }

  function ColorPass(vs: seq<Vertex>, colors: Option<seq<Vec4>>): (r: seq<Vertex>)
    requires colors.Some? ==> |colors.value| <= |vs|
    ensures |r| == |vs|
  {
    match colors
    case None => vs
    case Some(cs) => seq(|vs|, i requires 0 <= i < |vs| => if i < |cs| then vs[i].(color := cs[i]) else vs[i])
  }

  /** Element `i` of an optional attribute, or the default. */
  function AttributeOr<T>(attr: Option<seq<T>>, i: nat, default: T): T {
    if attr.Some? && i < |attr.value| then attr.value[i] else default
  }

  /** The vertices a primitive contributes, built pass by pass as the source
      does; vertex `i` carries position `i` and the `i`-th element of each
      attribute the primitive has, the default where it has none. */
  function PrimitiveVertices(p: Primitive): (vs: seq<Vertex>)
    requires WellFormedPrimitive(p)
    ensures |vs| == |p.positions|
    ensures forall i :: 0 <= i < |vs| ==>
              && vs[i].position == p.positions[i]
              && vs[i].normal == AttributeOr(p.normals, i, DefaultNormal)
              && vs[i].uvX == AttributeOr(p.texcoords, i, Vec2(0.0, 0.0)).x
              && vs[i].uvY == AttributeOr(p.texcoords, i, Vec2(0.0, 0.0)).y
              && vs[i].color == AttributeOr(p.colors, i, DefaultColor)
  {
    ColorPass(TexcoordPass(NormalPass(PositionPass(p.positions), p.normals), p.texcoords), p.colors)
  }

  // ---------------------------------------------------------------------------
  // Merging the primitives of one mesh
  // ---------------------------------------------------------------------------

  datatype Merged = Merged(indices: seq<Uint32>, vertices: seq<Vertex>, surfaces: seq<Surface>)

  /** A primitive's indices rebased by the vertices already merged; the sum is
      taken in `size_t` and stored as `uint32_t`. */
  function Rebase(idx: seq<nat>, base: nat): (r: seq<Uint32>)
    ensures |r| == |idx|
    ensures forall j :: 0 <= j < |idx| && idx[j] + base < Uint32Modulus ==> r[j] == idx[j] + base
  {
    seq(|idx|, j requires 0 <= j < |idx| => ToUint32(idx[j] + base))
  }

  /** The body of the primitive loop: one surface, the rebased indices, the
      primitive's vertices. */
  function AddPrimitive(m: Merged, p: Primitive): (r: Result<Merged, LoadError>)
    requires WellFormedPrimitive(p)
    ensures r.Err? <==> p.indices.None?
    ensures r.Ok? ==>
              && |r.value.surfaces| == |m.surfaces| + 1
              && |r.value.indices| == |m.indices| + |p.indices.value|
              && |r.value.vertices| == |m.vertices| + |p.positions|
              && r.value.surfaces[..|m.surfaces|] == m.surfaces
              && r.value.indices[..|m.indices|] == m.indices
              && r.value.vertices[..|m.vertices|] == m.vertices
  {
    match p.indices
    case None => Err(MissingIndices)
    case Some(idx) =>
      Ok(Merged(
        m.indices + Rebase(idx, |m.vertices|),
        m.vertices + PrimitiveVertices(p),
        m.surfaces + [Surface(ToUint32(|m.indices|), ToUint32(|idx|))]))
  }

  /** The primitive loop, over the primitives in order; the first primitive
      without indices ends the load. */
  function Merge(ps: seq<Primitive>): (r: Result<Merged, LoadError>)
    requires WellFormedPrimitives(ps)
    ensures r.Err? ==> r.error == MissingIndices
    ensures r.Ok? ==> |r.value.surfaces| == |ps|
    decreases |ps|
  {
    if |ps| == 0 then Ok(Merged([], [], []))
    else
      var init := ps[..|ps| - 1];
      assert forall k :: 0 <= k < |init| ==> init[k] == ps[k];
      match Merge(init)
      case Err(e) => Err(e)
      case Ok(m) => AddPrimitive(m, ps[|ps| - 1])
  }

  function IndexCount(p: Primitive): nat {
    if p.indices.Some? then |p.indices.value| else 0
  }

  /** Indices contributed by `ps`. */
  function IndexTotal(ps: seq<Primitive>): nat
    decreases |ps|
  {
    if |ps| == 0 then 0 else IndexTotal(ps[..|ps| - 1]) + IndexCount(ps[|ps| - 1])
  }

  /** Vertices contributed by `ps`. */
  function VertexTotal(ps: seq<Primitive>): nat
    decreases |ps|
  {
    if |ps| == 0 then 0 else VertexTotal(ps[..|ps| - 1]) + |ps[|ps| - 1].positions|
  }

  predicate AllIndexed(ps: seq<Primitive>) {
    forall k :: 0 <= k < |ps| ==> ps[k].indices.Some?
  }

  /** Where primitive `k`'s indices start in the merged index buffer. */
  function IndexStart(ps: seq<Primitive>, k: nat): nat
    requires k <= |ps|
  {
    IndexTotal(ps[..k])
  }

  /** How many vertices precede primitive `k`'s in the merged vertex buffer. */
  function VertexBase(ps: seq<Primitive>, k: nat): nat
    requires k <= |ps|
  {
    VertexTotal(ps[..k])
  }

  /** Where everything lands: surface `k` starts after the indices of the
      primitives before it and counts its own; its indices occupy that range,
      rebased by the vertices before it; and its vertices follow those. */
  ghost predicate MergeLayout(ps: seq<Primitive>, m: Merged)
    requires WellFormedPrimitives(ps) && AllIndexed(ps)
  {
    && |m.surfaces| == |ps|
    && |m.indices| == IndexTotal(ps)
    && |m.vertices| == VertexTotal(ps)
    && forall k :: 0 <= k < |ps| ==> SegmentPlaced(ps, m, k)
  }

  /** Prefixes of `init + [last]`. */
  lemma PrefixOfSnoc<T>(init: seq<T>, last: T, k: nat)
    requires k <= |init|
    ensures (init + [last])[..k] == init[..k]
  {
  }

  /** What the layout says about primitive `k`. */
  ghost predicate SegmentPlaced(ps: seq<Primitive>, m: Merged, k: nat)
    requires WellFormedPrimitives(ps) && AllIndexed(ps) && k < |ps|
  {
    && k < |m.surfaces|
    && m.surfaces[k] == Surface(ToUint32(IndexStart(ps, k)), ToUint32(|ps[k].indices.value|))
    && IndexStart(ps, k) + |ps[k].indices.value| <= |m.indices|
    && m.indices[IndexStart(ps, k)..IndexStart(ps, k) + |ps[k].indices.value|]
       == Rebase(ps[k].indices.value, VertexBase(ps, k))
    && VertexBase(ps, k) + |ps[k].positions| <= |m.vertices|
    && m.vertices[VertexBase(ps, k)..VertexBase(ps, k) + |ps[k].positions|] == PrimitiveVertices(ps[k])
  }

  /** A primitive merged earlier keeps its place when another is added. */
  lemma {:induction false} EarlierSegmentKept(init: seq<Primitive>, last: Primitive, m0: Merged, k: nat)
    requires WellFormedPrimitives(init) && AllIndexed(init) && k < |init|
    requires |m0.indices| == IndexTotal(init) && |m0.vertices| == VertexTotal(init)
    requires SegmentPlaced(init, m0, k)
    requires WellFormedPrimitive(last) && last.indices.Some?
    ensures WellFormedPrimitives(init + [last]) && AllIndexed(init + [last])
    ensures SegmentPlaced(init + [last], AddPrimitive(m0, last).value, k)
  {
    var ps := init + [last];
    var m := AddPrimitive(m0, last).value;
    PrefixOfSnoc(init, last, k);
    assert ps[k] == init[k];
    assert IndexStart(ps, k) == IndexStart(init, k) && VertexBase(ps, k) == VertexBase(init, k);
    assert m.surfaces[k] == m0.surfaces[k];
    var a := IndexStart(init, k);
    var b := a + |init[k].indices.value|;
    assert m.indices[a..b] == m0.indices[a..b];
    var c := VertexBase(init, k);
    var d := c + |init[k].positions|;
    assert m.vertices[c..d] == m0.vertices[c..d];
  }

  /** The added primitive lands right after everything merged before it. */
  lemma {:induction false} NewSegmentPlaced(init: seq<Primitive>, last: Primitive, m0: Merged)
    requires WellFormedPrimitives(init) && AllIndexed(init)
    requires |m0.surfaces| == |init| && |m0.indices| == IndexTotal(init) && |m0.vertices| == VertexTotal(init)
    requires WellFormedPrimitive(last) && last.indices.Some?
    ensures WellFormedPrimitives(init + [last]) && AllIndexed(init + [last])
    ensures SegmentPlaced(init + [last], AddPrimitive(m0, last).value, |init|)
  {
    var ps := init + [last];
    var m := AddPrimitive(m0, last).value;
    assert ps[..|init|] == init;
    assert m.indices[|m0.indices|..|m0.indices| + |last.indices.value|] == Rebase(last.indices.value, |m0.vertices|);
    assert m.vertices[|m0.vertices|..|m0.vertices| + |last.positions|] == PrimitiveVertices(last);
  }

  /** Adding one primitive keeps the layout of the earlier ones and puts the
      new one right after them. */
  lemma MergeStep(init: seq<Primitive>, last: Primitive, m0: Merged)
    requires WellFormedPrimitives(init) && AllIndexed(init) && MergeLayout(init, m0)
    requires WellFormedPrimitive(last) && last.indices.Some?
    ensures WellFormedPrimitives(init + [last]) && AllIndexed(init + [last])
    ensures MergeLayout(init + [last], AddPrimitive(m0, last).value)
  {
    var ps := init + [last];
    var m := AddPrimitive(m0, last).value;
    assert ps[..|init|] == init;
    assert IndexTotal(ps) == IndexTotal(init) + |last.indices.value|;
    assert VertexTotal(ps) == VertexTotal(init) + |last.positions|;
    forall k | 0 <= k < |ps|
      ensures SegmentPlaced(ps, m, k)
    {
      if k < |init| {
        assert SegmentPlaced(init, m0, k);
        EarlierSegmentKept(init, last, m0, k);
      } else {
        NewSegmentPlaced(init, last, m0);
      }
    }
  }

  /** The merge fails exactly when some primitive has no indices; otherwise
      it lays the primitives out one after another. */
  lemma {:induction false} MergeLaysOut(ps: seq<Primitive>)
    requires WellFormedPrimitives(ps)
    ensures Merge(ps).Ok? <==> AllIndexed(ps)
    ensures Merge(ps).Ok? ==> MergeLayout(ps, Merge(ps).value)
    decreases |ps|
  {
    if |ps| > 0 {
      var n := |ps| - 1;
      var init := ps[..n];
      var last := ps[n];
      assert ps == init + [last];
      assert WellFormedPrimitives(init);
      MergeLaysOut(init);
      assert AllIndexed(ps) <==> AllIndexed(init) && last.indices.Some?;
      if Merge(init).Ok? && last.indices.Some? {
        MergeStep(init, last, Merge(init).value);
      }
    }
  }

  // ---------------------------------------------------------------------------
  // Prefix totals
  // ---------------------------------------------------------------------------

  /** Primitive `k`'s indices end where primitive `k + 1`'s start; likewise vertices. */
  lemma {:induction false} NextStart(ps: seq<Primitive>, k: nat)
    requires k < |ps|
    ensures IndexStart(ps, k + 1) == IndexStart(ps, k) + IndexCount(ps[k])
    ensures VertexBase(ps, k + 1) == VertexBase(ps, k) + |ps[k].positions|
  {
    assert ps[..k + 1][..k] == ps[..k];
  }

  /** Later primitives start no earlier. */
  lemma {:induction false} StartsMonotone(ps: seq<Primitive>, k: nat, j: nat)
    requires k <= j <= |ps|
    ensures IndexStart(ps, k) <= IndexStart(ps, j)
    ensures VertexBase(ps, k) <= VertexBase(ps, j)
    decreases j - k
  {
    if k < j {
      NextStart(ps, k);
      StartsMonotone(ps, k + 1, j);
    }
  }

  lemma WholePrefix(ps: seq<Primitive>)
    ensures IndexStart(ps, |ps|) == IndexTotal(ps) && VertexBase(ps, |ps|) == VertexTotal(ps)
  {
    assert ps[..|ps|] == ps;
  }

  /** With fewer than 2^32 indices in all, the surfaces tile the index buffer:
      the first starts at 0, each starts where the previous ends, and the last
      ends at the end of the buffer. */
  lemma {:induction false} SurfacesContiguous(ps: seq<Primitive>)
    requires WellFormedPrimitives(ps) && AllIndexed(ps)
    requires IndexTotal(ps) < Uint32Modulus
    ensures Merge(ps).Ok?
    ensures var m := Merge(ps).value;
            && |m.surfaces| == |ps|
            && (|ps| > 0 ==> m.surfaces[0].startIndex == 0)
            && (forall k :: 0 <= k < |ps| - 1 ==>
                  m.surfaces[k + 1].startIndex == m.surfaces[k].startIndex + m.surfaces[k].count)
            && (|ps| > 0 ==> m.surfaces[|ps| - 1].startIndex + m.surfaces[|ps| - 1].count == |m.indices|)
  {
    MergeLaysOut(ps);
    var m := Merge(ps).value;
    WholePrefix(ps);
    forall k | 0 <= k < |ps|
      ensures m.surfaces[k].startIndex == IndexStart(ps, k)
      ensures m.surfaces[k].count == IndexCount(ps[k])
      ensures IndexStart(ps, k + 1) == IndexStart(ps, k) + IndexCount(ps[k])
    {
      assert SegmentPlaced(ps, m, k);
      NextStart(ps, k);
      StartsMonotone(ps, k + 1, |ps|);
    }
    if |ps| > 0 {
      assert ps[..0] == [];
    }
  }

  /** A primitive whose indices address its own vertices. */
  predicate IndicesAddressPositions(p: Primitive) {
    p.indices.Some? && forall j :: 0 <= j < |p.indices.value| ==> p.indices.value[j] < |p.positions|
  }

  /** Primitive `k`'s part of the merged index buffer. */
  function IndexSegment(ps: seq<Primitive>, m: Merged, k: nat): seq<Uint32>
    requires AllIndexed(ps) && k < |ps| && IndexStart(ps, k) + |ps[k].indices.value| <= |m.indices|
  {
    m.indices[IndexStart(ps, k)..IndexStart(ps, k) + |ps[k].indices.value|]
  }

  /** Every index of primitive `k`'s segment of the merged buffer addresses
      one of primitive `k`'s own merged vertices. */
  ghost predicate StaysInOwnPrimitive(ps: seq<Primitive>, m: Merged, k: nat)
    requires AllIndexed(ps) && k < |ps|
  {
    && IndexStart(ps, k) + |ps[k].indices.value| <= |m.indices|
    && forall j :: 0 <= j < |IndexSegment(ps, m, k)| ==>
         VertexBase(ps, k) <= IndexSegment(ps, m, k)[j] < VertexBase(ps, k) + |ps[k].positions| <= |m.vertices|
  }

  /** In any merge laid out as `MergeLayout` says, with at most 2^32 vertices
      in all, a primitive whose indices address its own positions stays in
      its own vertices. */
  lemma {:induction false} SegmentStaysInOwnPrimitive(ps: seq<Primitive>, m: Merged, k: nat)
    requires WellFormedPrimitives(ps) && AllIndexed(ps) && MergeLayout(ps, m)
    requires k < |ps| && IndicesAddressPositions(ps[k])
    requires VertexTotal(ps) <= Uint32Modulus
    ensures StaysInOwnPrimitive(ps, m, k)
  {
    assert SegmentPlaced(ps, m, k);
    WholePrefix(ps);
    NextStart(ps, k);
    StartsMonotone(ps, k + 1, |ps|);
    var idx := ps[k].indices.value;
    var base := VertexBase(ps, k);
    assert IndexSegment(ps, m, k) == Rebase(idx, base);
    forall j | 0 <= j < |idx| ensures base <= Rebase(idx, base)[j] < base + |ps[k].positions| {
      assert idx[j] < |ps[k].positions|;
    }
  }

  /** When every primitive's indices address its own vertices and there are at
      most 2^32 vertices in all, every index in primitive `k`'s segment of the
      merged buffer addresses one of primitive `k`'s merged vertices:
      rebasing never lets a primitive reach another's vertices. */
  lemma {:induction false} IndicesStayInOwnPrimitive(ps: seq<Primitive>)
    requires WellFormedPrimitives(ps)
    requires forall k :: 0 <= k < |ps| ==> IndicesAddressPositions(ps[k])
    requires VertexTotal(ps) <= Uint32Modulus
    ensures AllIndexed(ps) && Merge(ps).Ok?
    ensures forall k :: 0 <= k < |ps| ==> StaysInOwnPrimitive(ps, Merge(ps).value, k)
  {
    assert AllIndexed(ps);
    MergeLaysOut(ps);
    var m := Merge(ps).value;
    forall k | 0 <= k < |ps| ensures StaysInOwnPrimitive(ps, m, k) {
      SegmentStaysInOwnPrimitive(ps, m, k);
    }
  }

  // ---------------------------------------------------------------------------
  // Meshes and the document
  // ---------------------------------------------------------------------------

  /** The colour override: every vertex's colour becomes its normal with alpha 1. */
  function OverrideColors(vs: seq<Vertex>): (r: seq<Vertex>)
    ensures |r| == |vs|
    ensures forall i :: 0 <= i < |vs| ==>
              && r[i].position == vs[i].position && r[i].normal == vs[i].normal
              && r[i].uvX == vs[i].uvX && r[i].uvY == vs[i].uvY
              && r[i].color == Vec4(vs[i].normal.x, vs[i].normal.y, vs[i].normal.z, 1.0)
  {
    seq(|vs|, i requires 0 <= i < |vs| => vs[i].(color := Vec4(vs[i].normal.x, vs[i].normal.y, vs[i].normal.z, 1.0)))
  }

  /** The body of the mesh loop. */
  function LoadMesh(mesh: Mesh): (r: Result<Asset, LoadError>)
    requires WellFormedPrimitives(mesh.primitives)
    ensures r.Ok? <==> Merge(mesh.primitives).Ok?
    ensures r.Err? ==> r.error == MissingIndices
    ensures r.Ok? ==>
              && r.value.name == mesh.name
              && r.value.surfaces == Merge(mesh.primitives).value.surfaces
              && r.value.indices == Merge(mesh.primitives).value.indices
              && r.value.vertices == OverrideColors(Merge(mesh.primitives).value.vertices)
  {
    match Merge(mesh.primitives)
    case Err(e) => Err(e)
    case Ok(m) => Ok(Asset(mesh.name, m.surfaces, m.indices, OverrideColors(m.vertices)))
  }

  /** An uploaded vertex: the primitive's vertex with the colour override applied. */
  lemma {:induction false} LoadedVertex(mesh: Mesh, k: nat, i: nat)
    requires WellFormedPrimitives(mesh.primitives) && LoadMesh(mesh).Ok?
    requires k < |mesh.primitives| && i < |mesh.primitives[k].positions|
    ensures var ps := mesh.primitives;
            var a := LoadMesh(mesh).value;
            var p := ps[k];
            && VertexBase(ps, k) + i < |a.vertices|
            && a.vertices[VertexBase(ps, k) + i].position == p.positions[i]
            && a.vertices[VertexBase(ps, k) + i].normal == AttributeOr(p.normals, i, DefaultNormal)
            && a.vertices[VertexBase(ps, k) + i].uvX == AttributeOr(p.texcoords, i, Vec2(0.0, 0.0)).x
            && a.vertices[VertexBase(ps, k) + i].uvY == AttributeOr(p.texcoords, i, Vec2(0.0, 0.0)).y
            && a.vertices[VertexBase(ps, k) + i].color
               == Vec4(AttributeOr(p.normals, i, DefaultNormal).x, AttributeOr(p.normals, i, DefaultNormal).y,
                       AttributeOr(p.normals, i, DefaultNormal).z, 1.0)
  {
    var ps := mesh.primitives;
    MergeLaysOut(ps);
    LaidOutVertex(ps, Merge(ps).value, k, i);
  }

  /** In any merge laid out as `MergeLayout` says, primitive `k`'s vertex `i`
      sits after the vertices of the primitives before it. */
  lemma LaidOutVertex(ps: seq<Primitive>, m: Merged, k: nat, i: nat)
    requires WellFormedPrimitives(ps) && AllIndexed(ps) && MergeLayout(ps, m)
    requires k < |ps| && i < |ps[k].positions|
    ensures VertexBase(ps, k) + i < |m.vertices|
    ensures m.vertices[VertexBase(ps, k) + i] == PrimitiveVertices(ps[k])[i]
  {
    assert SegmentPlaced(ps, m, k);
    var b := VertexBase(ps, k);
    assert m.vertices[b + i] == m.vertices[b..b + |ps[k].positions|][i];
  }

  /** The results of the loop body in order, collected until the first error,
      which ends the loop with that error. */
  function CollectAssets(results: seq<Result<Asset, LoadError>>): (r: Result<seq<Asset>, LoadError>)
    ensures r.Ok? <==> forall k :: 0 <= k < |results| ==> results[k].Ok?
    ensures r.Err? ==> exists k :: && 0 <= k < |results| && results[k] == Err(r.error)
                                   && forall j :: 0 <= j < k ==> results[j].Ok?
    ensures r.Ok? ==> |r.value| == |results| && forall k :: 0 <= k < |results| ==> r.value[k] == results[k].value
    decreases |results|
  {
    if |results| == 0 then Ok([])
    else
      var rest := CollectAssets(results[1..]);
      assert forall k :: 0 <= k < |results| - 1 ==> results[1..][k] == results[k + 1];
      if results[0].Err? then Err(results[0].error)
      else if rest.Err? then
        var k :| && 0 <= k < |results| - 1 && results[1..][k] == Err(rest.error)
                 && forall j :: 0 <= j < k ==> results[1..][j].Ok?;
        assert results[k + 1] == Err(rest.error);
        Err(rest.error)
      else
        var assets := [results[0].value] + rest.value;
        assert forall k :: 0 < k < |results| ==> assets[k] == rest.value[k - 1];
        Ok(assets)
  }

  /** The mesh loop: one asset per mesh, in order; the first mesh that fails
      ends the load. Loading a mesh has no effect on the others, so the loop is
      the collection of the per-mesh results. */
  function LoadMeshes(meshes: seq<Mesh>): (r: Result<seq<Asset>, LoadError>)
    requires forall m :: 0 <= m < |meshes| ==> WellFormedPrimitives(meshes[m].primitives)
    ensures r.Ok? <==> forall m :: 0 <= m < |meshes| ==> LoadMesh(meshes[m]).Ok?
    ensures r.Err? ==> r.error == MissingIndices
    ensures r.Ok? ==> |r.value| == |meshes| && forall m :: 0 <= m < |meshes| ==> r.value[m] == LoadMesh(meshes[m]).value
  {
    var results := seq(|meshes|, m requires 0 <= m < |meshes| => LoadMesh(meshes[m]));
    assert forall m :: 0 <= m < |meshes| ==> results[m] == LoadMesh(meshes[m]);
    var r := CollectAssets(results);
    assert r.Err? ==> r.error == MissingIndices by {
      if r.Err? {
        var k :| 0 <= k < |results| && results[k] == Err(r.error);
        assert LoadMesh(meshes[k]).Err?;
      }
    }
    r
  }

  /** `load_gltf_meshes`: the parse result is a parameter (None when parsing
      fails). One asset per mesh, in order and under the mesh's name; the load
      fails when parsing fails or when any primitive has no indices. */
  function LoadGltfMeshes(parsed: Option<Document>): (r: Result<seq<Asset>, LoadError>)
    requires parsed.Some? ==> WellFormedDocument(parsed.value)
    ensures parsed.None? ==> r == Err(ParseFailed)
    ensures parsed.Some? ==>
              (r.Ok? <==> forall m, k :: 0 <= m < |parsed.value.meshes| && 0 <= k < |parsed.value.meshes[m].primitives| ==>
                            parsed.value.meshes[m].primitives[k].indices.Some?)
    ensures r.Ok? ==>
              && |r.value| == |parsed.value.meshes|
              && forall m :: 0 <= m < |r.value| ==>
                   && r.value[m].name == parsed.value.meshes[m].name
                   && |r.value[m].surfaces| == |parsed.value.meshes[m].primitives|
                   && LoadMesh(parsed.value.meshes[m]) == Ok(r.value[m])
    ensures parsed.Some? && r.Err? ==> r.error == MissingIndices
  {
    match parsed
    case None => Err(ParseFailed)
    case Some(doc) =>
      var r := LoadMeshes(doc.meshes);
      assert r.Ok? <==> forall m :: 0 <= m < |doc.meshes| ==> AllIndexed(doc.meshes[m].primitives) by {
        forall m | 0 <= m < |doc.meshes| ensures LoadMesh(doc.meshes[m]).Ok? <==> AllIndexed(doc.meshes[m].primitives) {
          MergeLaysOut(doc.meshes[m].primitives);
        }
      }
      assert r.Ok? ==> forall m :: 0 <= m < |doc.meshes| ==> |r.value[m].surfaces| == |doc.meshes[m].primitives| by {
        if r.Ok? {
          forall m | 0 <= m < |doc.meshes| ensures |r.value[m].surfaces| == |doc.meshes[m].primitives| {
            MergeLaysOut(doc.meshes[m].primitives);
          }
        }
      }
      r
  }
}

=== FILE: pipeline_builder.dfy ===
/** GraphicsPipelineBuilder: a record of pipeline state that `clear` resets,
    a setter per group of fields, and `build`, which assembles a graphics
    pipeline create info from the current state. */
module PipelineBuilder {
  import opened Wrappers
  import opened VkTypes

  datatype ShaderStage = VertexStage | FragmentStage

  datatype ShaderStageInfo = ShaderStageInfo(stage: ShaderStage, shaderModule: Handle, entryPoint: string)

  /** Primitive topologies; the zeroed state means POINT_LIST. */
  datatype Topology = PointList | LineList | LineStrip | TriangleList | TriangleStrip | TriangleFan

  /** Polygon modes; the zeroed state means FILL. */
  datatype PolygonMode = Fill | Line | Point

  datatype CullFlag = CullFront | CullBack

  /** Front faces; the zeroed state means COUNTER_CLOCKWISE. */
  datatype FrontFace = CounterClockwise | Clockwise

  datatype ColorComponent = ComponentR | ComponentG | ComponentB | ComponentA

  /** Compare ops; the zeroed state means NEVER. */
  datatype CompareOp = Never | Less | Equal | LessOrEqual | Greater | NotEqual | GreaterOrEqual | Always

  datatype LogicOp = LogicClear | LogicCopy

  datatype DynamicState = DynamicViewport | DynamicScissor

  datatype InputAssembly = InputAssembly(topology: Topology, primitiveRestart: bool)

  datatype Rasterizer = Rasterizer(polygonMode: PolygonMode, cullMode: set<CullFlag>, frontFace: FrontFace, lineWidth: real)

  /** `rasterizationSamples` is the sample-count bit; 0 is the zeroed, unset value. */
  datatype Multisampling = Multisampling(
    sampleShading: bool, rasterizationSamples: nat, minSampleShading: real,
    alphaToCoverage: bool, alphaToOne: bool)

  datatype BlendAttachment = BlendAttachment(colorWriteMask: set<ColorComponent>, blendEnable: bool)

  /** The stencil-face states are zeroed by both `clear` and `disable_depth_test`
      and are not represented. */
  datatype DepthStencil = DepthStencil(
    depthTest: bool, depthWrite: bool, compareOp: CompareOp, boundsTest: bool,
    stencilTest: bool, minDepthBounds: real, maxDepthBounds: real)

  /** The dynamic-rendering info: how many colour formats it points at (the
      builder's own `color_attachment_format` when 1) and the depth format. */
  datatype RenderInfo = RenderInfo(colorAttachmentCount: nat, depthAttachmentFormat: Format)

  datatype ViewportState = ViewportState(viewportCount: nat, scissorCount: nat)

  /** `attachmentCount` blend attachments, all of them the builder's one attachment. */
  datatype ColorBlending = ColorBlending(logicOpEnable: bool, logicOp: LogicOp, attachmentCount: nat)

  datatype Builder = Builder(
    shaderStages: seq<ShaderStageInfo>,
    inputAssembly: InputAssembly,
    rasterizer: Rasterizer,
    blendAttachment: BlendAttachment,
    multisampling: Multisampling,
    pipelineLayout: Handle,
    depthStencil: DepthStencil,
    renderInfo: RenderInfo,
    colorAttachmentFormat: Option<Format>,
    viewportState: ViewportState,
    colorBlending: ColorBlending,
    dynamicStates: seq<DynamicState>)

  /** The create info `build` returns, with every pointer it holds resolved to
      the value it points at. */
  datatype PipelineCreateInfo = PipelineCreateInfo(
    colorAttachmentFormats: seq<Format>,
    depthAttachmentFormat: Format,
    stageCount: Uint32,
    stages: seq<ShaderStageInfo>,
    vertexBindings: nat,
    inputAssembly: InputAssembly,
    viewportState: ViewportState,
    rasterizer: Rasterizer,
    multisampling: Multisampling,
    depthStencil: DepthStencil,
    colorBlending: ColorBlending,
    blendAttachments: seq<BlendAttachment>,
    dynamicStateCount: Uint32,
    dynamicStates: seq<DynamicState>,
    layout: Handle)

  /** A colour attachment count of 1 always points at a set format. */
  predicate ValidBuilder(b: Builder) {
    b.renderInfo.colorAttachmentCount <= 1
    && (b.renderInfo.colorAttachmentCount == 1 ==> b.colorAttachmentFormat.Some?)
  }

  const ZeroInputAssembly := InputAssembly(PointList, false)
  const ZeroRasterizer := Rasterizer(Fill, {}, CounterClockwise, 0.0)
  const ZeroBlendAttachment := BlendAttachment({}, false)
  const ZeroMultisampling := Multisampling(false, 0, 0.0, false, false)
  const ZeroDepthStencil := DepthStencil(false, false, Never, false, false, 0.0, 0.0)
  const ZeroRenderInfo := RenderInfo(0, FormatUndefined)

  /** `clear`: every field back to its zeroed or fixed value, one viewport and
      scissor, one non-logic-op blend attachment, dynamic viewport and scissor.
      The stored colour format is left as it was, but nothing points at it. */
  function Clear(b: Builder): (r: Builder)
    ensures ValidBuilder(r)
    ensures r.colorAttachmentFormat == b.colorAttachmentFormat
    ensures r.shaderStages == [] && r.pipelineLayout == NullHandle
    ensures r.renderInfo.colorAttachmentCount == 0 && r.renderInfo.depthAttachmentFormat == FormatUndefined
    ensures r.viewportState == ViewportState(1, 1)
    ensures !r.colorBlending.logicOpEnable && r.colorBlending.attachmentCount == 1
    ensures r.dynamicStates == [DynamicViewport, DynamicScissor]
    ensures !r.depthStencil.depthTest && !r.depthStencil.stencilTest && !r.blendAttachment.blendEnable
  {
    Builder(
      shaderStages := [],
      inputAssembly := ZeroInputAssembly,
      rasterizer := ZeroRasterizer,
      blendAttachment := ZeroBlendAttachment,
      multisampling := ZeroMultisampling,
      pipelineLayout := NullHandle,
      depthStencil := ZeroDepthStencil,
      renderInfo := ZeroRenderInfo,
      colorAttachmentFormat := b.colorAttachmentFormat,
      viewportState := ViewportState(1, 1),
      colorBlending := ColorBlending(false, LogicCopy, 1),
      dynamicStates := [DynamicViewport, DynamicScissor])
  }

  /** The constructor runs `clear` on a builder whose colour format was never set. */
  function NewBuilder(): (r: Builder)
    ensures ValidBuilder(r) && r.colorAttachmentFormat.None?
  {
    Clear(Builder([], ZeroInputAssembly, ZeroRasterizer, ZeroBlendAttachment, ZeroMultisampling,
                  NullHandle, ZeroDepthStencil, ZeroRenderInfo, None, ViewportState(0, 0),
                  ColorBlending(false, LogicClear, 0), []))
  }

  /** `build`. */
  function Build(b: Builder): (r: PipelineCreateInfo)
    requires ValidBuilder(b)
    ensures |r.colorAttachmentFormats| == b.renderInfo.colorAttachmentCount
    ensures |r.colorAttachmentFormats| == 1 ==> b.colorAttachmentFormat == Some(r.colorAttachmentFormats[0])
    ensures |b.shaderStages| < Uint32Modulus ==> r.stageCount == |r.stages|
    ensures |r.blendAttachments| == r.colorBlending.attachmentCount
    ensures forall i :: 0 <= i < |r.blendAttachments| ==> r.blendAttachments[i] == b.blendAttachment
    ensures r.dynamicStateCount == |r.dynamicStates| || |r.dynamicStates| >= Uint32Modulus
    ensures r.stages == b.shaderStages && r.layout == b.pipelineLayout
    ensures r.depthAttachmentFormat == b.renderInfo.depthAttachmentFormat
  {
    PipelineCreateInfo(
      colorAttachmentFormats := if b.renderInfo.colorAttachmentCount == 1 then [b.colorAttachmentFormat.value] else [],
      depthAttachmentFormat := b.renderInfo.depthAttachmentFormat,
      stageCount := ToUint32(|b.shaderStages|),
      stages := b.shaderStages,
      vertexBindings := 0,
      inputAssembly := b.inputAssembly,
      viewportState := b.viewportState,
      rasterizer := b.rasterizer,
      multisampling := b.multisampling,
      depthStencil := b.depthStencil,
      colorBlending := b.colorBlending,
      blendAttachments := seq(b.colorBlending.attachmentCount, _ => b.blendAttachment),
      dynamicStateCount := ToUint32(|b.dynamicStates|),
      dynamicStates := b.dynamicStates,
      layout := b.pipelineLayout)
  }

  /** Whatever state a builder held, `clear` makes it build the same create
      info: nothing of the old configuration leaks through, not even the stale
      colour format. */
  lemma ClearForgetsConfiguration(b1: Builder, b2: Builder)
    ensures Build(Clear(b1)) == Build(Clear(b2))
  {
  }

  // ---------------------------------------------------------------------------
  // Setters
  // ---------------------------------------------------------------------------

  datatype Setter =
    | SetLayout(layout: Handle)
    | SetShaders(vertexShader: Handle, fragmentShader: Handle)
    | SetInputTopology(topology: Topology)
    | SetPolygonMode(mode: PolygonMode)
    | SetCullMode(cullMode: set<CullFlag>, frontFace: FrontFace)
    | SetMultisamplingNone
    | DisableBlending
    | SetColorAttachmentFormat(format: Format)
    | SetDepthFormat(depthFormat: Format)
    | DisableDepthTest

  /** The two stages `set_shaders` installs, replacing any earlier ones. */
  function ShaderStages(vertexShader: Handle, fragmentShader: Handle): seq<ShaderStageInfo> {
    [ShaderStageInfo(VertexStage, vertexShader, "main"), ShaderStageInfo(FragmentStage, fragmentShader, "main")]
  }

  const AllComponents: set<ColorComponent> := {ComponentR, ComponentG, ComponentB, ComponentA}

  /** One setter applied to the builder; `SetLayout` is the direct assignment
      to `pipeline_layout` the callers make. */
  function Apply(b: Builder, s: Setter): (r: Builder)
    requires ValidBuilder(b)
    ensures ValidBuilder(r)
    ensures r.viewportState == b.viewportState && r.colorBlending == b.colorBlending && r.dynamicStates == b.dynamicStates
    ensures Kind(s) != KLayout ==> r.pipelineLayout == b.pipelineLayout
    ensures Kind(s) != KShaders ==> r.shaderStages == b.shaderStages
    ensures Kind(s) != KTopology ==> r.inputAssembly == b.inputAssembly
    ensures Kind(s) != KPolygon && Kind(s) != KCull ==> r.rasterizer == b.rasterizer
    ensures Kind(s) != KMultisample ==> r.multisampling == b.multisampling
    ensures Kind(s) != KBlend ==> r.blendAttachment == b.blendAttachment
    ensures Kind(s) != KColorFormat ==>
              r.colorAttachmentFormat == b.colorAttachmentFormat && r.renderInfo.colorAttachmentCount == b.renderInfo.colorAttachmentCount
    ensures Kind(s) != KDepthFormat ==> r.renderInfo.depthAttachmentFormat == b.renderInfo.depthAttachmentFormat
    ensures Kind(s) != KDepthTest ==> r.depthStencil == b.depthStencil
  {
    match s
    case SetLayout(layout) => b.(pipelineLayout := layout)
    case SetShaders(v, f) => b.(shaderStages := ShaderStages(v, f))
    case SetInputTopology(t) => b.(inputAssembly := InputAssembly(t, false))
    case SetPolygonMode(m) => b.(rasterizer := b.rasterizer.(polygonMode := m, lineWidth := 1.0))
    case SetCullMode(c, f) => b.(rasterizer := b.rasterizer.(cullMode := c, frontFace := f))
    case SetMultisamplingNone => b.(multisampling := Multisampling(false, 1, 1.0, false, false))
    case DisableBlending => b.(blendAttachment := BlendAttachment(AllComponents, false))
    case SetColorAttachmentFormat(format) =>
      b.(colorAttachmentFormat := Some(format), renderInfo := b.renderInfo.(colorAttachmentCount := 1))
    case SetDepthFormat(format) => b.(renderInfo := b.renderInfo.(depthAttachmentFormat := format))
    case DisableDepthTest => b.(depthStencil := DepthStencil(false, false, Never, false, false, 0.0, 1.0))
  }

  /** What each setter promises about the create info built afterwards: the
      fields it sets take its values, and every other field is as before. */
  lemma SetterEffect(b: Builder, s: Setter)
    requires ValidBuilder(b)
    ensures var before := Build(b);
            var after := Build(Apply(b, s));
            match s
            case SetLayout(layout) => after == before.(layout := layout)
            case SetShaders(v, f) =>
              && after == before.(stages := after.stages, stageCount := after.stageCount)
              && after.stageCount == 2 && |after.stages| == 2
              && after.stages[0].stage == VertexStage && after.stages[0].shaderModule == v
              && after.stages[1].stage == FragmentStage && after.stages[1].shaderModule == f
              && after.stages[0].entryPoint == after.stages[1].entryPoint == "main"
            case SetInputTopology(t) =>
              after == before.(inputAssembly := InputAssembly(t, false))
            case SetPolygonMode(m) =>
              && after == before.(rasterizer := after.rasterizer)
              && after.rasterizer == before.rasterizer.(polygonMode := m, lineWidth := 1.0)
            case SetCullMode(c, f) =>
              && after == before.(rasterizer := after.rasterizer)
              && after.rasterizer == before.rasterizer.(cullMode := c, frontFace := f)
            case SetMultisamplingNone =>
              && after == before.(multisampling := after.multisampling)
              && after.multisampling.rasterizationSamples == 1
              && !after.multisampling.sampleShading && after.multisampling.minSampleShading == 1.0
              && !after.multisampling.alphaToCoverage && !after.multisampling.alphaToOne
            case DisableBlending =>
              && after == before.(blendAttachments := after.blendAttachments)
              && forall i :: 0 <= i < |after.blendAttachments| ==>
                   !after.blendAttachments[i].blendEnable && after.blendAttachments[i].colorWriteMask == AllComponents
            case SetColorAttachmentFormat(format) =>
              after == before.(colorAttachmentFormats := [format])
            case SetDepthFormat(format) =>
              after == before.(depthAttachmentFormat := format)
            case DisableDepthTest =>
              && after == before.(depthStencil := after.depthStencil)
              && !after.depthStencil.depthTest && !after.depthStencil.depthWrite
              && !after.depthStencil.boundsTest && !after.depthStencil.stencilTest
              && after.depthStencil.compareOp == Never
              && after.depthStencil.minDepthBounds == 0.0 && after.depthStencil.maxDepthBounds == 1.0
  {
  }

  /** The group of builder fields a setter writes. */
  datatype SetterKind = KLayout | KShaders | KTopology | KPolygon | KCull | KMultisample | KBlend | KColorFormat | KDepthFormat | KDepthTest

  function Kind(s: Setter): SetterKind {
    match s
    case SetLayout(_) => KLayout
    case SetShaders(_, _) => KShaders
    case SetInputTopology(_) => KTopology
    case SetPolygonMode(_) => KPolygon
    case SetCullMode(_, _) => KCull
    case SetMultisamplingNone => KMultisample
    case DisableBlending => KBlend
    case SetColorAttachmentFormat(_) => KColorFormat
    case SetDepthFormat(_) => KDepthFormat
    case DisableDepthTest => KDepthTest
  }

  /** Different setters write disjoint fields, so their order does not matter. */
  lemma SettersCommute(b: Builder, s1: Setter, s2: Setter)
    requires ValidBuilder(b) && Kind(s1) != Kind(s2)
    ensures Apply(Apply(b, s1), s2) == Apply(Apply(b, s2), s1)
  {
  }

  /** Two calls of the same setter: the last one wins, and nothing accumulates
      (calling `set_shaders` twice leaves two stages, not four). */
  lemma LastSetterWins(b: Builder, s1: Setter, s2: Setter)
    requires ValidBuilder(b) && Kind(s1) == Kind(s2)
    ensures Apply(Apply(b, s1), s2) == Apply(b, s2)
  {
  }

  /** The builder `create_triangle_pipeline` fills in: a new builder, then its
      setter calls in the order the source makes them. */
  function TriangleBuilder(layout: Handle, vertexShader: Handle, fragmentShader: Handle, drawFormat: Format): (b: Builder)
    ensures ValidBuilder(b)
    ensures b.pipelineLayout == layout && b.shaderStages == ShaderStages(vertexShader, fragmentShader)
    ensures b.colorAttachmentFormat == Some(drawFormat) && b.renderInfo == RenderInfo(1, FormatUndefined)
    ensures b.viewportState == ViewportState(1, 1) && b.colorBlending == ColorBlending(false, LogicCopy, 1)
    ensures b.dynamicStates == [DynamicViewport, DynamicScissor]
    ensures !b.depthStencil.depthTest && !b.depthStencil.stencilTest && !b.blendAttachment.blendEnable
    ensures b.inputAssembly == InputAssembly(TriangleList, false)
    ensures b.rasterizer == Rasterizer(Fill, {}, Clockwise, 1.0)
    ensures b.multisampling.rasterizationSamples == 1
    ensures b.blendAttachment == BlendAttachment(AllComponents, false) && !b.depthStencil.depthWrite
  {
    var b0 := NewBuilder();
    var b1 := Apply(b0, SetLayout(layout));
    var b2 := Apply(b1, SetShaders(vertexShader, fragmentShader));
    var b3 := Apply(b2, SetInputTopology(TriangleList));
    var b4 := Apply(b3, SetPolygonMode(Fill));
    var b5 := Apply(b4, SetCullMode({}, Clockwise));
    var b6 := Apply(b5, SetMultisamplingNone);
    var b7 := Apply(b6, DisableBlending);
    var b8 := Apply(b7, DisableDepthTest);
    var b9 := Apply(b8, SetColorAttachmentFormat(drawFormat));
    Apply(b9, SetDepthFormat(FormatUndefined))
  }

  /** The triangle pipeline: two stages from the given modules, a triangle list
      without restart, filled polygons with no culling and clockwise front
      faces, one sample, one colour attachment of the draw image's format
      written in full without blending, no depth attachment and no depth or
      stencil test, dynamic viewport and scissor, and the given layout. */
  lemma TrianglePipelineConfiguration(layout: Handle, vertexShader: Handle, fragmentShader: Handle, drawFormat: Format)
    ensures var info := Build(TriangleBuilder(layout, vertexShader, fragmentShader, drawFormat));
            && info.stages == ShaderStages(vertexShader, fragmentShader) && info.stageCount == 2
            && info.inputAssembly == InputAssembly(TriangleList, false)
            && info.rasterizer == Rasterizer(Fill, {}, Clockwise, 1.0)
            && info.multisampling.rasterizationSamples == 1
            && info.colorAttachmentFormats == [drawFormat]
            && info.blendAttachments == [BlendAttachment(AllComponents, false)]
            && info.depthAttachmentFormat == FormatUndefined
            && !info.depthStencil.depthTest && !info.depthStencil.depthWrite && !info.depthStencil.stencilTest
            && info.viewportState == ViewportState(1, 1)
            && info.dynamicStates == [DynamicViewport, DynamicScissor] && info.dynamicStateCount == 2
            && info.layout == layout
  {
    var b := TriangleBuilder(layout, vertexShader, fragmentShader, drawFormat);
    var info := Build(b);
    assert info.colorAttachmentFormats == [drawFormat];
    assert info.blendAttachments == [b.blendAttachment];
  }
}

=== FILE: search.dfy ===
/** The "first element of a fixed list that passes a test" pattern.

    The renderer picks queue families, depth formats, surface formats and
    composite-alpha modes with a `for` loop that `break`s on the first match.
    `FirstMatch` is that loop, defined once. */
module Search {
  import opened Wrappers

  /** True when no element of `xs` before position `k` satisfies `p`. */
  ghost predicate NoneBefore<T>(xs: seq<T>, p: T -> bool, k: nat)
    requires k <= |xs|
  {
    forall j :: 0 <= j < k ==> !p(xs[j])
  }

  /** The lowest position at or after `from` whose element satisfies `p`. */
  function FirstMatchFrom<T>(xs: seq<T>, p: T -> bool, from: nat): (r: Option<nat>)
    requires from <= |xs|
    requires NoneBefore(xs, p, from)
    ensures r.Some? ==> r.value < |xs| && p(xs[r.value]) && NoneBefore(xs, p, r.value)
    ensures r.None? <==> NoneBefore(xs, p, |xs|)
    decreases |xs| - from
  {
    if from == |xs| then None
    else if p(xs[from]) then Some(from)
    else FirstMatchFrom(xs, p, from + 1)
  }

  /** The lowest position of `xs` whose element satisfies `p`, if any. */
  function FirstMatch<T>(xs: seq<T>, p: T -> bool): (r: Option<nat>)
    ensures r.Some? ==> r.value < |xs| && p(xs[r.value]) && NoneBefore(xs, p, r.value)
    ensures r.None? <==> NoneBefore(xs, p, |xs|)
  {
    FirstMatchFrom(xs, p, 0)
  }

  /** A first match is unique: any position satisfying `p` with no earlier match is it. */
  lemma FirstMatchUnique<T>(xs: seq<T>, p: T -> bool, k: nat)
    requires k < |xs| && p(xs[k]) && NoneBefore(xs, p, k)
    ensures FirstMatch(xs, p) == Some(k)
  {
  }
}

=== FILE: swapchain.dfy ===
/** Swapchain configuration and recreation.

    Two snapshots of the renderer create their swapchain by different rules:
    the forward renderer derives every parameter from the surface, the
    compute/blit renderer fixes most of them. Each is its own function here.
    Recreation (forward renderer only) is an event trace whose effect on the
    set of live handles is stated and proved. */
module Swapchain {
  import opened Wrappers
  import opened Search
  import opened VkTypes

  /** VkSurfaceCapabilitiesKHR, restricted to the fields the renderer reads. */
  datatype SurfaceCapabilities = SurfaceCapabilities(
    minImageCount: Uint32,
    maxImageCount: Uint32,
    currentExtent: Extent2D,
    supportedTransforms: set<SurfaceTransform>,
    currentTransform: SurfaceTransform,
    supportedCompositeAlpha: set<CompositeAlpha>,
    supportedUsageFlags: set<ImageUsage>)

  /** VkSurfaceFormatKHR. */
  datatype SurfaceFormat = SurfaceFormat(format: Format, colorSpace: ColorSpace)

  /** VkSwapchainCreateInfoKHR; sharing mode is always exclusive and is not recorded. */
  datatype SwapchainCreateInfo = SwapchainCreateInfo(
    surface: Handle,
    minImageCount: Uint32,
    imageFormat: Format,
    imageColorSpace: ColorSpace,
    imageExtent: Extent2D,
    imageArrayLayers: nat,
    imageUsage: set<ImageUsage>,
    preTransform: SurfaceTransform,
    compositeAlpha: CompositeAlpha,
    presentMode: PresentMode,
    clipped: bool,
    oldSwapchain: Handle)

  // ---------------------------------------------------------------------------
  // Forward renderer: parameters derived from the surface
  // ---------------------------------------------------------------------------

  /** FIFO is the mode every surface supports, so it is the fallback; MAILBOX
      is taken only when vsync is off and the surface lists it. */
  function ChoosePresentMode(modes: seq<PresentMode>, vsync: bool): (r: PresentMode)
    ensures r == Mailbox <==> !vsync && Mailbox in modes
    ensures r != Mailbox ==> r == Fifo
  {
    if vsync then Fifo
    else
      match FirstMatch(modes, m => m == Mailbox)
      case Some(i) => modes[i]
      case None => Fifo
  }

  /** One more image than the surface minimum, as a `uint32_t` sum, then
      clamped to the maximum when the surface reports one (0 means "no limit"). */
  function ChooseImageCount(caps: SurfaceCapabilities): (r: Uint32)
    ensures caps.maxImageCount > 0 ==> r <= caps.maxImageCount
    ensures (caps.minImageCount < Uint32Max && (caps.maxImageCount == 0 || caps.minImageCount < caps.maxImageCount))
              ==> r == caps.minImageCount + 1
    ensures (caps.minImageCount < Uint32Max && 0 < caps.maxImageCount <= caps.minImageCount)
              ==> r == caps.maxImageCount
    ensures caps.minImageCount == Uint32Max ==> r == 0
  {
    var count := ToUint32(caps.minImageCount + 1);
    if caps.maxImageCount > 0 && count > caps.maxImageCount then caps.maxImageCount else count
  }

  /** Surface capabilities as the Vulkan specification constrains them:
      at least one image, and a nonzero maximum is no smaller than the minimum. */
  predicate WellFormedCapabilities(caps: SurfaceCapabilities) {
    && caps.minImageCount >= 1
    && (caps.maxImageCount == 0 || caps.minImageCount <= caps.maxImageCount)
  }

  /** For well-formed capabilities the chosen count lies within the surface's
      limits, as long as `minImageCount + 1` does not wrap. */
  lemma ImageCountWithinLimits(caps: SurfaceCapabilities)
    requires WellFormedCapabilities(caps) && caps.minImageCount < Uint32Max
    ensures caps.minImageCount <= ChooseImageCount(caps)
    ensures caps.maxImageCount == 0 || ChooseImageCount(caps) <= caps.maxImageCount
    ensures ChooseImageCount(caps) <= caps.minImageCount + 1
  {
  }

  /** The `uint32_t` sum wraps: a minimum of UINT32_MAX yields 0 images, and
      since 0 never exceeds the maximum the clamp leaves it there. */
  lemma ImageCountWrapsAtUint32Max(caps: SurfaceCapabilities)
    requires caps.minImageCount == Uint32Max
    ensures ChooseImageCount(caps) == 0
  {
  }

  /** A surface reporting currentExtent.width == UINT32_MAX leaves the extent
      to the application, which uses the window size. */
  function ChooseExtent(caps: SurfaceCapabilities, width: Uint32, height: Uint32): (r: Extent2D)
    ensures caps.currentExtent.width == Uint32Max ==> r == Extent2D(width, height)
    ensures caps.currentExtent.width != Uint32Max ==> r == caps.currentExtent
    ensures width != Uint32Max ==> r.width != Uint32Max
  {
    if caps.currentExtent.width == Uint32Max then Extent2D(width, height) else caps.currentExtent
  }

  predicate IsPreferredFormat(sf: SurfaceFormat) {
    sf.format == B8G8R8A8Unorm || sf.format == R8G8B8A8Unorm
  }

  /** The first 8-bit BGRA/RGBA UNORM entry, else the first entry. */
  function ChooseSurfaceFormat(formats: seq<SurfaceFormat>): (r: SurfaceFormat)
    requires |formats| > 0
    ensures r in formats
    ensures (exists i :: 0 <= i < |formats| && IsPreferredFormat(formats[i])) ==>
              exists k :: 0 <= k < |formats| && formats[k] == r && IsPreferredFormat(r)
                          && NoneBefore(formats, IsPreferredFormat, k)
    ensures (forall i :: 0 <= i < |formats| ==> !IsPreferredFormat(formats[i])) ==> r == formats[0]
  {
    match FirstMatch(formats, IsPreferredFormat)
    case Some(i) => formats[i]
    case None => formats[0]
  }

  /** The order in which composite-alpha modes are tried. */
  const AlphaPreference: seq<CompositeAlpha> :=
    [AlphaOpaque, AlphaPreMultiplied, AlphaPostMultiplied, AlphaInherit]

  /** Position of a mode in the preference order, defined independently of the list. */
  function AlphaRank(a: CompositeAlpha): nat {
    match a
    case AlphaOpaque => 0
    case AlphaPreMultiplied => 1
    case AlphaPostMultiplied => 2
    case AlphaInherit => 3
  }

  /** Every mode appears in the preference list, so a set containing none of
      the list's entries is empty. */
  lemma NothingPreferredMeansEmpty(supported: set<CompositeAlpha>)
    requires forall j :: 0 <= j < |AlphaPreference| ==> AlphaPreference[j] !in supported
    ensures supported == {}
  {
    forall a: CompositeAlpha ensures a !in supported {
      assert AlphaPreference[AlphaRank(a)] == a;
    }
  }

  /** The most preferred supported mode; OPAQUE when the surface supports none. */
  function ChooseCompositeAlpha(supported: set<CompositeAlpha>): (r: CompositeAlpha)
    ensures supported == {} ==> r == AlphaOpaque
    ensures supported != {} ==> r in supported && forall a :: a in supported ==> AlphaRank(r) <= AlphaRank(a)
  {
    match FirstMatch(AlphaPreference, a => a in supported)
    case Some(i) =>
      assert forall j :: 0 <= j < |AlphaPreference| ==> AlphaRank(AlphaPreference[j]) == j;
      AlphaPreference[i]
    case None =>
      assert forall j :: 0 <= j < |AlphaPreference| ==> AlphaPreference[j] !in supported;
      NothingPreferredMeansEmpty(supported);
      AlphaOpaque
  }

  /** Colour attachment always; transfer source and destination when supported. */
  function ChooseImageUsage(supported: set<ImageUsage>): (r: set<ImageUsage>)
    ensures UsageColorAttachment in r
    ensures r == {UsageColorAttachment} + supported * {UsageTransferSrc, UsageTransferDst}
  {
    var withSrc := {UsageColorAttachment} + (if UsageTransferSrc in supported then {UsageTransferSrc} else {});
    withSrc + (if UsageTransferDst in supported then {UsageTransferDst} else {})
  }

  /** Identity when the surface supports it, else whatever the surface currently applies. */
  function ChoosePreTransform(caps: SurfaceCapabilities): (r: SurfaceTransform)
    ensures r == TransformIdentity || r == caps.currentTransform
    ensures r == TransformIdentity <==>
              TransformIdentity in caps.supportedTransforms || caps.currentTransform == TransformIdentity
  {
    if TransformIdentity in caps.supportedTransforms then TransformIdentity else caps.currentTransform
  }

  /** The create-info of the forward renderer's `create_swapchain`. */
  function ForwardCreateInfo(
    surface: Handle, caps: SurfaceCapabilities, formats: seq<SurfaceFormat>,
    modes: seq<PresentMode>, vsync: bool, width: Uint32, height: Uint32, oldSwapchain: Handle
  ): (ci: SwapchainCreateInfo)
    requires |formats| > 0
    ensures ci.presentMode == Mailbox <==> !vsync && Mailbox in modes
    ensures ci.presentMode == Mailbox || ci.presentMode == Fifo
    ensures caps.maxImageCount > 0 ==> ci.minImageCount <= caps.maxImageCount
    ensures SurfaceFormat(ci.imageFormat, ci.imageColorSpace) in formats
    ensures UsageColorAttachment in ci.imageUsage
    ensures ci.imageUsage <= {UsageColorAttachment} + caps.supportedUsageFlags
    ensures ci.compositeAlpha in caps.supportedCompositeAlpha
            || (caps.supportedCompositeAlpha == {} && ci.compositeAlpha == AlphaOpaque)
    ensures ci.preTransform in caps.supportedTransforms || ci.preTransform == caps.currentTransform
    ensures width != Uint32Max ==> ci.imageExtent.width != Uint32Max
    ensures ci.surface == surface && ci.oldSwapchain == oldSwapchain
    ensures ci.imageArrayLayers == 1 && ci.clipped
    ensures ci.minImageCount == ChooseImageCount(caps) && ci.imageExtent == ChooseExtent(caps, width, height)
    ensures SurfaceFormat(ci.imageFormat, ci.imageColorSpace) == ChooseSurfaceFormat(formats)
    ensures ci.imageUsage == ChooseImageUsage(caps.supportedUsageFlags)
    ensures ci.compositeAlpha == ChooseCompositeAlpha(caps.supportedCompositeAlpha)
    ensures ci.preTransform == ChoosePreTransform(caps) && ci.presentMode == ChoosePresentMode(modes, vsync)
  {
    var sf := ChooseSurfaceFormat(formats);
    SwapchainCreateInfo(
      surface := surface,
      minImageCount := ChooseImageCount(caps),
      imageFormat := sf.format,
      imageColorSpace := sf.colorSpace,
      imageExtent := ChooseExtent(caps, width, height),
      imageArrayLayers := 1,
      imageUsage := ChooseImageUsage(caps.supportedUsageFlags),
      preTransform := ChoosePreTransform(caps),
      compositeAlpha := ChooseCompositeAlpha(caps.supportedCompositeAlpha),
      presentMode := ChoosePresentMode(modes, vsync),
      clipped := true,
      oldSwapchain := oldSwapchain)
  }

  // ---------------------------------------------------------------------------
  // Compute/blit renderer: fixed parameters
  // ---------------------------------------------------------------------------

  /** The create-info of the compute/blit renderer's `create_swapchain`: no
      clamp on the image count, a fixed format and present mode, the surface's
      current extent taken as is, and never an old swapchain. */
  function RendererCreateInfo(surface: Handle, caps: SurfaceCapabilities): (ci: SwapchainCreateInfo)
    ensures ci.minImageCount == ToUint32(caps.minImageCount + 1)
    ensures ci.imageFormat == B8G8R8A8Unorm && ci.imageColorSpace == SrgbNonlinear
    ensures ci.presentMode == Fifo
    ensures ci.imageUsage == {UsageColorAttachment, UsageTransferDst}
    ensures ci.imageExtent == caps.currentExtent
    ensures ci.preTransform == caps.currentTransform && ci.compositeAlpha == AlphaOpaque
    ensures ci.oldSwapchain == NullHandle && ci.surface == surface
    ensures ci.imageArrayLayers == 1 && ci.clipped
  {
    SwapchainCreateInfo(
      surface := surface,
      minImageCount := ToUint32(caps.minImageCount + 1),
      imageFormat := B8G8R8A8Unorm,
      imageColorSpace := SrgbNonlinear,
      imageExtent := caps.currentExtent,
      imageArrayLayers := 1,
      imageUsage := {UsageColorAttachment, UsageTransferDst},
      preTransform := caps.currentTransform,
      compositeAlpha := AlphaOpaque,
      presentMode := Fifo,
      clipped := true,
      oldSwapchain := NullHandle)
  }

  /** Where the surface's minimum equals its maximum, the forward renderer
      clamps the count to the maximum while the compute/blit renderer asks
      for one image more than the surface allows. */
  lemma SnapshotsDifferOnImageCountClamp(surface: Handle)
    ensures var caps := SurfaceCapabilities(3, 3, Extent2D(800, 600), {TransformIdentity},
                                            TransformIdentity, {AlphaOpaque}, {UsageColorAttachment});
            && ForwardCreateInfo(surface, caps, [SurfaceFormat(B8G8R8A8Unorm, SrgbNonlinear)], [Fifo],
                                 true, 800, 600, NullHandle).minImageCount == 3
            && RendererCreateInfo(surface, caps).minImageCount == 4
  {
  }

  /** With a surface that leaves the extent undefined, the compute/blit
      renderer passes the UINT32_MAX sentinel through as the swapchain extent,
      where the forward renderer substitutes the window size. */
  lemma SnapshotsDifferOnUndefinedExtent(caps: SurfaceCapabilities, width: Uint32, height: Uint32)
    requires caps.currentExtent.width == Uint32Max && width != Uint32Max
    ensures RendererCreateInfo(NullHandle, caps).imageExtent.width == Uint32Max
    ensures ForwardCreateInfo(NullHandle, caps, [SurfaceFormat(B8G8R8A8Unorm, SrgbNonlinear)], [Fifo],
                              true, width, height, NullHandle).imageExtent == Extent2D(width, height)
  {
  }

  /** Over all surfaces: the two snapshots ask for the same image count
      exactly when the forward renderer's clamp does not bite, that is when
      the surface has no maximum or one above its minimum, or when the sum
      wraps to 0 in both. */
  lemma SnapshotsAgreeOnImageCount(
    surface: Handle, caps: SurfaceCapabilities, formats: seq<SurfaceFormat>,
    modes: seq<PresentMode>, vsync: bool, width: Uint32, height: Uint32, oldSwapchain: Handle)
    requires |formats| > 0
    ensures ForwardCreateInfo(surface, caps, formats, modes, vsync, width, height, oldSwapchain).minImageCount
              == RendererCreateInfo(surface, caps).minImageCount
            <==> caps.minImageCount == Uint32Max || caps.maxImageCount == 0 || caps.minImageCount + 1 <= caps.maxImageCount
  {
  }

  /** Over all surfaces: the two snapshots choose the same extent exactly
      when the surface defines its extent, or leaves it undefined and the
      window size happens to equal the sentinel extent. */
  lemma SnapshotsAgreeOnExtent(
    surface: Handle, caps: SurfaceCapabilities, formats: seq<SurfaceFormat>,
    modes: seq<PresentMode>, vsync: bool, width: Uint32, height: Uint32, oldSwapchain: Handle)
    requires |formats| > 0
    ensures ForwardCreateInfo(surface, caps, formats, modes, vsync, width, height, oldSwapchain).imageExtent
              == RendererCreateInfo(surface, caps).imageExtent
            <==> caps.currentExtent.width != Uint32Max || caps.currentExtent == Extent2D(width, height)
  {
  }

  // ---------------------------------------------------------------------------
  // Creation and recreation as a trace over live handles
  // ---------------------------------------------------------------------------

  datatype LifecycleEvent =
    | CreateSwapchain(swapchain: Handle, oldSwapchain: Handle)
    | DestroyImageView(view: Handle)
    | DestroySwapchain(destroyed: Handle)
    | CreateImageView(view: Handle, image: Handle)

  /** The swapchain, its images and their views, plus the next fresh handle. */
  datatype SwapchainState = SwapchainState(swapchain: Handle, images: seq<Handle>, views: seq<Handle>, next: nat)

  /** Every handle the state owns was handed out before `next`, and `next` is never null. */
  predicate Valid(s: SwapchainState) {
    && s.next > 0
    && s.swapchain < s.next
    && forall i :: 0 <= i < |s.views| ==> s.views[i] < s.next
  }

  function DestroyViews(views: seq<Handle>): (es: seq<LifecycleEvent>)
    ensures |es| == |views|
    ensures forall i :: 0 <= i < |views| ==> es[i] == DestroyImageView(views[i])
  {
    seq(|views|, i requires 0 <= i < |views| => DestroyImageView(views[i]))
  }

  function CreateViews(views: seq<Handle>, images: seq<Handle>): (es: seq<LifecycleEvent>)
    requires |views| == |images|
    ensures |es| == |images|
    ensures forall i :: 0 <= i < |images| ==> es[i] == CreateImageView(views[i], images[i])
  {
    seq(|images|, i requires 0 <= i < |images| => CreateImageView(views[i], images[i]))
  }

  /** Effect of one event on the set of live handles. */
  function ApplyEvent(live: set<Handle>, e: LifecycleEvent): set<Handle> {
    match e
    case CreateSwapchain(h, _) => live + {h}
    case CreateImageView(v, _) => live + {v}
    case DestroyImageView(v) => live - {v}
    case DestroySwapchain(h) => live - {h}
  }

  function Replay(live: set<Handle>, es: seq<LifecycleEvent>): set<Handle>
    decreases |es|
  {
    if |es| == 0 then live else Replay(ApplyEvent(live, es[0]), es[1..])
  }

  /** The forward renderer's create_swapchain after the create-info is built:
      create the new swapchain (handing over the old one), then, only if there
      was an old one, destroy its views and it, then make one view per image
      the new swapchain reports. `images` is what the driver returns. */
  function Recreate(s: SwapchainState, images: seq<Handle>): (r: (SwapchainState, seq<LifecycleEvent>))
    requires Valid(s)
    ensures Valid(r.0)
    ensures r.0.swapchain != NullHandle && r.0.images == images && |r.0.views| == |images|
    ensures |r.1| > 0 && r.1[0] == CreateSwapchain(r.0.swapchain, s.swapchain)
    ensures s.swapchain == NullHandle ==> r.1 == [r.1[0]] + CreateViews(r.0.views, images)
    ensures s.swapchain != NullHandle ==>
              r.1 == [r.1[0]] + DestroyViews(s.views) + [DestroySwapchain(s.swapchain)] + CreateViews(r.0.views, images)
  {
    var created := s.next;
    var views := FreshHandles(s.next + 1, |images|);
    var teardown := if s.swapchain != NullHandle then DestroyViews(s.views) + [DestroySwapchain(s.swapchain)] else [];
    var es := [CreateSwapchain(created, s.swapchain)] + teardown + CreateViews(views, images);
    (SwapchainState(created, images, views, s.next + 1 + |images|), es)
  }

  /** True when no event of `es` destroys handle `h`. */
  ghost predicate NeverDestroys(es: seq<LifecycleEvent>, h: Handle) {
    forall i :: 0 <= i < |es| ==> es[i] != DestroySwapchain(h) && es[i] != DestroyImageView(h)
  }

  lemma {:induction false} ReplayAppend(live: set<Handle>, a: seq<LifecycleEvent>, b: seq<LifecycleEvent>)
    ensures Replay(live, a + b) == Replay(Replay(live, a), b)
    decreases |a|
  {
    if |a| > 0 {
      assert (a + b)[1..] == a[1..] + b;
      ReplayAppend(ApplyEvent(live, a[0]), a[1..], b);
    } else {
      assert a + b == b;
    }
  }

  lemma {:induction false} ReplayKeeps(live: set<Handle>, es: seq<LifecycleEvent>, h: Handle)
    requires h in live && NeverDestroys(es, h)
    ensures h in Replay(live, es)
    decreases |es|
  {
    if |es| > 0 {
      ReplayKeeps(ApplyEvent(live, es[0]), es[1..], h);
    }
  }

  lemma {:induction false} ReplayDestroyViews(live: set<Handle>, views: seq<Handle>)
    ensures Replay(live, DestroyViews(views)) == live - (set v | v in views)
    decreases |views|
  {
    if |views| > 0 {
      assert DestroyViews(views)[1..] == DestroyViews(views[1..]);
      ReplayDestroyViews(live - {views[0]}, views[1..]);
      assert (set v | v in views) == {views[0]} + (set v | v in views[1..]);
    }
  }

  lemma {:induction false} ReplayCreateViews(live: set<Handle>, views: seq<Handle>, images: seq<Handle>)
    requires |views| == |images|
    ensures Replay(live, CreateViews(views, images)) == live + (set v | v in views)
    decreases |views|
  {
    if |views| > 0 {
      assert CreateViews(views, images)[1..] == CreateViews(views[1..], images[1..]);
      ReplayCreateViews(live + {views[0]}, views[1..], images[1..]);
      assert (set v | v in views) == {views[0]} + (set v | v in views[1..]);
    }
  }

  /** From the first event on, the new swapchain is live: recreation never
      passes through a state with neither the old nor the new swapchain. */
  lemma NewSwapchainLiveThroughout(s: SwapchainState, images: seq<Handle>, live: set<Handle>, k: nat)
    requires Valid(s)
    requires 1 <= k <= |Recreate(s, images).1|
    ensures Recreate(s, images).0.swapchain in Replay(live, Recreate(s, images).1[..k])
  {
    var r := Recreate(s, images);
    var es := r.1;
    assert es[..k] == [es[0]] + es[1..k];
    ReplayAppend(live, [es[0]], es[1..k]);
    assert forall i :: 1 <= i < |es| ==> es[i] != DestroySwapchain(r.0.swapchain) && es[i] != DestroyImageView(r.0.swapchain);
    assert NeverDestroys(es[1..k], r.0.swapchain);
    ReplayKeeps(live + {r.0.swapchain}, es[1..k], r.0.swapchain);
  }

  /** After recreation exactly the old swapchain and its views are gone (when
      there was one) and the new swapchain and one view per image are live. */
  lemma RecreateLiveSet(s: SwapchainState, images: seq<Handle>, live: set<Handle>)
    requires Valid(s)
    ensures var r := Recreate(s, images);
            Replay(live, r.1) ==
              (if s.swapchain != NullHandle then live + {r.0.swapchain} - (set v | v in s.views) - {s.swapchain}
               else live + {r.0.swapchain})
              + (set v | v in r.0.views)
  {
    var r := Recreate(s, images);
    var head := [r.1[0]];
    var creation := CreateViews(r.0.views, images);
    ReplayCreateViews(Replay(live, [r.1[0]]) , r.0.views, images);
    if s.swapchain != NullHandle {
      var views := DestroyViews(s.views);
      assert r.1 == head + views + [DestroySwapchain(s.swapchain)] + creation;
      ReplayAppend(live, head + views + [DestroySwapchain(s.swapchain)], creation);
      ReplayAppend(live, head + views, [DestroySwapchain(s.swapchain)]);
      ReplayAppend(live, head, views);
      ReplayDestroyViews(live + {r.0.swapchain}, s.views);
      ReplayCreateViews(live + {r.0.swapchain} - (set v | v in s.views) - {s.swapchain}, r.0.views, images);
    } else {
      ReplayAppend(live, head, creation);
      ReplayCreateViews(live + {r.0.swapchain}, r.0.views, images);
    }
  }

  /** The compute/blit renderer's create_swapchain: create, then one view per
      image. It never hands over or destroys a previous swapchain. */
  function RendererCreate(s: SwapchainState, images: seq<Handle>): (r: (SwapchainState, seq<LifecycleEvent>))
    requires Valid(s)
    ensures Valid(r.0)
    ensures r.0.swapchain != NullHandle && r.0.images == images && |r.0.views| == |images|
    ensures |r.1| == 1 + |images| && r.1[0] == CreateSwapchain(r.0.swapchain, NullHandle)
    ensures forall i :: 0 <= i < |r.1| ==> !r.1[i].DestroyImageView? && !r.1[i].DestroySwapchain?
  {
    var created := s.next;
    var views := FreshHandles(s.next + 1, |images|);
    (SwapchainState(created, images, views, s.next + 1 + |images|), [CreateSwapchain(created, NullHandle)] + CreateViews(views, images))
  }
}

=== FILE: uniform_buffers.dfy ===
/** The forward renderer's per-frame uniform upload (`prepare_uniform_buffers`).

    Model matrices go into one host-visible dynamic uniform buffer that grows
    only when the frame needs more bytes than it holds; the camera's
    projection and view go into a fixed-size buffer created on first use.
    Each call to a query callback is one batch (one flecs table). */
module UniformBuffers {
  import opened VkTypes

  /** A 4x4 float matrix; its contents are opaque to this model. */
  datatype Mat4 = Mat4(entries: seq<real>)

  /** sizeof(glm::mat4). */
  const Mat4Size: nat := 64

  /** sizeof(ExtractedView): a projection and a view matrix. */
  const ExtractedViewSize: nat := 2 * Mat4Size

  datatype UniformEvent =
    | UnmapMemory(unmapped: Handle)
    | DestroyBuffer(destroyed: Handle)
    | CreateBuffer(created: Handle, size: nat)
    | MapMemory(mapped: Handle, mappedSize: nat)
    /** `update_descriptor_sets(set, type, arg, {buffer, 0, range})`; `arg` is the literal the call passes. */
    | UpdateDescriptor(descriptorSet: Handle, arg: nat, buffer: Handle, range: nat)
    | CopyToMapped(target: Handle, data: seq<Mat4>)

  datatype DynamicBuffer = DynamicBuffer(buffer: Handle, capacity: nat)

  datatype UniformState = UniformState(
    transformDynamic: DynamicBuffer,
    viewBuffer: Handle,
    modelSet: Handle,
    viewSet: Handle,
    next: nat)

  /** Handles already handed out lie below `next`; an unallocated dynamic
      buffer is exactly one of capacity 0. */
  predicate Valid(s: UniformState) {
    && s.next > 0
    && s.transformDynamic.buffer < s.next
    && s.viewBuffer < s.next
    && (s.transformDynamic.buffer == NullHandle <==> s.transformDynamic.capacity == 0)
  }

  /** Which model matrix the gathering loop pushes for the i-th entity of a
      table. The source pushes `transform->model`, the table's first element,
      for every entity; the evidently intended loop pushes the i-th one. */
  datatype TransformRead = AsWrittenRead | CorrectedRead

  function ReadModel(read: TransformRead, models: seq<Mat4>, i: nat): Mat4
    requires i < |models|
  {
    match read
    case AsWrittenRead => models[0]
    case CorrectedRead => models[i]
  }

  /** The first `n` iterations of the gathering loop: one push per entity. */
  function GatherUniforms(read: TransformRead, models: seq<Mat4>, n: nat): (u: seq<Mat4>)
    requires n <= |models|
    ensures |u| == n
    ensures forall i :: 0 <= i < n ==> u[i] == ReadModel(read, models, i)
  {
    if n == 0 then [] else GatherUniforms(read, models, n - 1) + [ReadModel(read, models, n - 1)]
  }

  /** The uniforms the corrected loop gathers: exactly the batch's model matrices, in order. */
  function BatchUniforms(models: seq<Mat4>): (u: seq<Mat4>)
    ensures u == models
  {
    GatherUniforms(CorrectedRead, models, |models|)
  }

  /** The uniforms the loop as written gathers: the first model matrix, once per entity. */
  function BatchUniformsAsWritten(models: seq<Mat4>): (u: seq<Mat4>)
    ensures |u| == |models|
    ensures forall i :: 0 <= i < |models| ==> u[i] == models[0]
  {
    GatherUniforms(AsWrittenRead, models, |models|)
  }

  /** The loop as written uploads the right matrices exactly when every entity
      of the table has the same model matrix. */
  lemma AsWrittenDuplicatesFirstTransform(models: seq<Mat4>)
    ensures BatchUniformsAsWritten(models) == BatchUniforms(models)
            <==> forall i :: 0 <= i < |models| ==> models[i] == models[0]
  {
    var w := BatchUniformsAsWritten(models);
    if forall i :: 0 <= i < |models| ==> models[i] == models[0] {
      assert forall i :: 0 <= i < |models| ==> w[i] == models[i];
    }
    if w == BatchUniforms(models) {
      assert forall i :: 0 <= i < |models| ==> models[i] == w[i];
    }
  }

  /** True when some event in `es` creates a buffer. */
  ghost predicate Allocates(es: seq<UniformEvent>) {
    exists i :: 0 <= i < |es| && es[i].CreateBuffer?
  }

  /** True when some event in `es` rewrites a descriptor. */
  ghost predicate RebindsDescriptor(es: seq<UniformEvent>) {
    exists i :: 0 <= i < |es| && es[i].UpdateDescriptor?
  }

  /** Neither of two event lists allocates or rebinds, so their concatenation does not. */
  lemma {:induction false} QuietConcat(a: seq<UniformEvent>, b: seq<UniformEvent>)
    requires !Allocates(a) && !RebindsDescriptor(a)
    requires !Allocates(b) && !RebindsDescriptor(b)
    ensures !Allocates(a + b) && !RebindsDescriptor(a + b)
  {
    forall i | 0 <= i < |a + b|
      ensures !(a + b)[i].CreateBuffer? && !(a + b)[i].UpdateDescriptor?
    {
      if i < |a| {
        assert (a + b)[i] == a[i];
      } else {
        assert (a + b)[i] == b[i - |a|];
      }
    }
  }

  /** No event releases a buffer or rewrites binding 0, the model matrices'
      dynamic uniform binding. */
  ghost predicate KeepsDynamicBuffer(es: seq<UniformEvent>) {
    forall i :: 0 <= i < |es| ==>
      !es[i].UnmapMemory? && !es[i].DestroyBuffer? && !(es[i].UpdateDescriptor? && es[i].arg == 0)
  }

  /** Every buffer created in `es` is `h`. */
  ghost predicate CreatesOnly(es: seq<UniformEvent>, h: Handle) {
    forall i :: 0 <= i < |es| && es[i].CreateBuffer? ==> es[i].created == h
  }

  lemma {:induction false} KeepsConcat(a: seq<UniformEvent>, b: seq<UniformEvent>, h: Handle)
    requires KeepsDynamicBuffer(a) && KeepsDynamicBuffer(b)
    requires CreatesOnly(a, h) && CreatesOnly(b, h)
    ensures KeepsDynamicBuffer(a + b) && CreatesOnly(a + b, h)
  {
    forall i | 0 <= i < |a + b|
      ensures (a + b)[i] == if i < |a| then a[i] else b[i - |a|]
    {
    }
  }

  /** One mesh-query batch: grow the dynamic buffer if it is too small
      (releasing the old one, if any, creating and mapping one of exactly the
      batch's size and rebinding the model descriptor set to it), then copy
      the gathered matrices into it. */
  function PrepareMeshBatch(s: UniformState, read: TransformRead, models: seq<Mat4>): (r: (UniformState, seq<UniformEvent>))
    requires Valid(s)
    ensures Valid(r.0)
    ensures var size := |models| * Mat4Size;
            && (Allocates(r.1) <==> s.transformDynamic.capacity < size)
            && (RebindsDescriptor(r.1) <==> s.transformDynamic.capacity < size)
            && r.0.transformDynamic.capacity >= size
            && r.0.transformDynamic.capacity >= s.transformDynamic.capacity
    ensures var size := |models| * Mat4Size;
            s.transformDynamic.capacity < size ==>
              && r.0.transformDynamic == DynamicBuffer(s.next, size)
              && r.0.next == s.next + 1
              && CreateBuffer(s.next, size) in r.1
              && MapMemory(s.next, size) in r.1
              && UpdateDescriptor(s.modelSet, 0, s.next, size) in r.1
    ensures var size := |models| * Mat4Size;
            s.transformDynamic.capacity < size && s.transformDynamic.buffer != NullHandle ==>
              && |r.1| == 6
              && r.1[0] == UnmapMemory(s.transformDynamic.buffer)
              && r.1[1] == DestroyBuffer(s.transformDynamic.buffer)
              && r.1[2] == CreateBuffer(s.next, size)
    ensures var size := |models| * Mat4Size;
            s.transformDynamic.capacity < size && s.transformDynamic.buffer == NullHandle ==>
              && |r.1| == 4
              && r.1[0] == CreateBuffer(s.next, size)
    ensures s.transformDynamic.capacity >= |models| * Mat4Size ==> r.0 == s
    ensures |r.1| > 0 && r.1[|r.1| - 1] == CopyToMapped(r.0.transformDynamic.buffer, GatherUniforms(read, models, |models|))
    ensures read == CorrectedRead ==> r.1[|r.1| - 1].data == models
    ensures forall i :: 0 <= i < |r.1| && r.1[i].DestroyBuffer? ==>
              r.1[i].destroyed == s.transformDynamic.buffer != NullHandle
    ensures r.0.viewBuffer == s.viewBuffer && r.0.modelSet == s.modelSet && r.0.viewSet == s.viewSet
  {
    var size := |models| * Mat4Size;
    var current := s.transformDynamic;
    var uniforms := GatherUniforms(read, models, |models|);
    if current.capacity < size then
      var created := s.next;
      var release := if current.buffer != NullHandle then [UnmapMemory(current.buffer), DestroyBuffer(current.buffer)] else [];
      var es := release + [CreateBuffer(created, size), MapMemory(created, size), UpdateDescriptor(s.modelSet, 0, created, size),
                           CopyToMapped(created, uniforms)];
      assert es[|release|] == CreateBuffer(created, size);
      assert es[|release| + 1] == MapMemory(created, size);
      assert es[|release| + 2] == UpdateDescriptor(s.modelSet, 0, created, size);
      (s.(transformDynamic := DynamicBuffer(created, size), next := s.next + 1), es)
    else
      (s, [CopyToMapped(current.buffer, uniforms)])
  }

  /** One view-query batch: create, map and bind the view buffer the first
      time only, then copy the camera's matrices into it. */
  function PrepareViewBatch(s: UniformState, projection: Mat4, view: Mat4): (r: (UniformState, seq<UniformEvent>))
    requires Valid(s)
    ensures Valid(r.0)
    ensures r.0.viewBuffer != NullHandle
    ensures s.viewBuffer != NullHandle ==> r.0 == s && r.1 == [CopyToMapped(s.viewBuffer, [projection, view])]
    ensures s.viewBuffer == NullHandle ==>
              r.1 == [CreateBuffer(r.0.viewBuffer, ExtractedViewSize), MapMemory(r.0.viewBuffer, ExtractedViewSize),
                      UpdateDescriptor(s.viewSet, 1, r.0.viewBuffer, ExtractedViewSize),
                      CopyToMapped(r.0.viewBuffer, [projection, view])]
    ensures r.0.transformDynamic == s.transformDynamic
  {
    if s.viewBuffer != NullHandle then
      (s, [CopyToMapped(s.viewBuffer, [projection, view])])
    else
      var created := s.next;
      (s.(viewBuffer := created, next := s.next + 1),
       [CreateBuffer(created, ExtractedViewSize), MapMemory(created, ExtractedViewSize),
        UpdateDescriptor(s.viewSet, 1, created, ExtractedViewSize), CopyToMapped(created, [projection, view])])
  }

  /** All mesh-query batches of one frame, in query order: afterwards the
      capacity has never shrunk and holds every batch. Every table's copy
      lands at offset 0 of the mapped buffer, so the frame ends with the last
      table's matrices in it. */
  function PrepareMeshBatches(s: UniformState, read: TransformRead, batches: seq<seq<Mat4>>): (r: (UniformState, seq<UniformEvent>))
    requires Valid(s)
    ensures Valid(r.0)
    ensures r.0.transformDynamic.capacity >= s.transformDynamic.capacity
    ensures forall k :: 0 <= k < |batches| ==> r.0.transformDynamic.capacity >= |batches[k]| * Mat4Size
    ensures r.0.viewBuffer == s.viewBuffer && r.0.modelSet == s.modelSet && r.0.viewSet == s.viewSet
    ensures |batches| > 0 ==>
              var last := batches[|batches| - 1];
              |r.1| > 0 && r.1[|r.1| - 1] == CopyToMapped(r.0.transformDynamic.buffer, GatherUniforms(read, last, |last|))
    decreases |batches|
  {
    if |batches| == 0 then (s, [])
    else
      var first := PrepareMeshBatch(s, read, batches[0]);
      var rest := PrepareMeshBatches(first.0, read, batches[1..]);
      assert forall k :: 1 <= k < |batches| ==> batches[k] == batches[1..][k - 1];
      assert |rest.1| > 0 ==> (first.1 + rest.1)[|first.1 + rest.1| - 1] == rest.1[|rest.1| - 1];
      assert |batches| == 1 ==> rest.1 == [] && first.1 + rest.1 == first.1;
      (rest.0, first.1 + rest.1)
  }

  /** Batches that fit the current capacity never reallocate, never rebind the
      descriptor and leave the state unchanged. */
  lemma {:induction false} NoReallocationWhenBatchesFit(s: UniformState, read: TransformRead, batches: seq<seq<Mat4>>)
    requires Valid(s)
    requires forall k :: 0 <= k < |batches| ==> |batches[k]| * Mat4Size <= s.transformDynamic.capacity
    ensures PrepareMeshBatches(s, read, batches).0 == s
    ensures !Allocates(PrepareMeshBatches(s, read, batches).1)
    ensures !RebindsDescriptor(PrepareMeshBatches(s, read, batches).1)
    ensures forall i :: 0 <= i < |PrepareMeshBatches(s, read, batches).1| ==>
              PrepareMeshBatches(s, read, batches).1[i].CopyToMapped?
              && PrepareMeshBatches(s, read, batches).1[i].target == s.transformDynamic.buffer
    decreases |batches|
  {
    if |batches| > 0 {
      var first := PrepareMeshBatch(s, read, batches[0]);
      assert first.0 == s;
      assert forall k :: 0 <= k < |batches| - 1 ==> batches[1..][k] == batches[k + 1];
      NoReallocationWhenBatchesFit(s, read, batches[1..]);
      var rest := PrepareMeshBatches(s, read, batches[1..]);
      assert first.1 == [CopyToMapped(s.transformDynamic.buffer, GatherUniforms(read, batches[0], |batches[0]|))];
      var es := first.1 + rest.1;
      assert PrepareMeshBatches(s, read, batches).1 == es;
      forall i | 0 <= i < |es|
        ensures es[i].CopyToMapped? && es[i].target == s.transformDynamic.buffer
      {
        if i > 0 {
          assert es[i] == rest.1[i - 1];
        }
      }
    }
  }

  /** One view-query table: the projection of its first camera and the model
      matrix of that camera's transform, the only entity the callback reads. */
  datatype Camera = Camera(projection: Mat4, view: Mat4)

  /** All view-query batches of one frame: only the first camera ever seen
      allocates, so with a view buffer in place nothing is created or rebound. */
  function PrepareViewBatches(s: UniformState, cameras: seq<Camera>): (r: (UniformState, seq<UniformEvent>))
    requires Valid(s)
    ensures Valid(r.0)
    ensures r.0.transformDynamic == s.transformDynamic
    ensures |cameras| > 0 ==> r.0.viewBuffer != NullHandle
    ensures s.viewBuffer != NullHandle ==> r.0 == s && !Allocates(r.1) && !RebindsDescriptor(r.1)
    ensures KeepsDynamicBuffer(r.1) && CreatesOnly(r.1, r.0.viewBuffer)
    decreases |cameras|
  {
    if |cameras| == 0 then (s, [])
    else
      var first := PrepareViewBatch(s, cameras[0].projection, cameras[0].view);
      var rest := PrepareViewBatches(first.0, cameras[1..]);
      KeepsConcat(first.1, rest.1, rest.0.viewBuffer);
      if s.viewBuffer != NullHandle then
        QuietConcat(first.1, rest.1);
        (rest.0, first.1 + rest.1)
      else
        (rest.0, first.1 + rest.1)
  }

  /** What one frame's queries yield: the model matrices of each mesh table,
      and one camera per view-query table. */
  datatype FrameInput = FrameInput(meshBatches: seq<seq<Mat4>>, cameras: seq<Camera>)

  /** `prepare_uniform_buffers`: the mesh query's batches, then the view query's. */
  function PrepareUniformBuffers(s: UniformState, read: TransformRead, frame: FrameInput): (r: (UniformState, seq<UniformEvent>))
    requires Valid(s)
    ensures Valid(r.0)
    ensures r.0.transformDynamic.capacity >= s.transformDynamic.capacity
    ensures forall k :: 0 <= k < |frame.meshBatches| ==> r.0.transformDynamic.capacity >= |frame.meshBatches[k]| * Mat4Size
    ensures (s.viewBuffer != NullHandle || |frame.cameras| > 0) ==> r.0.viewBuffer != NullHandle
    ensures s.viewBuffer != NullHandle ==> r.0.viewBuffer == s.viewBuffer
    ensures r.0.modelSet == s.modelSet && r.0.viewSet == s.viewSet
  {
    var mesh := PrepareMeshBatches(s, read, frame.meshBatches);
    var view := PrepareViewBatches(mesh.0, frame.cameras);
    (view.0, mesh.1 + view.1)
  }

  /** The largest batch of a frame's mesh query (0 for none). */
  function MaxBatch(batches: seq<seq<Mat4>>): (m: nat)
    ensures forall k :: 0 <= k < |batches| ==> |batches[k]| <= m
    ensures |batches| == 0 ==> m == 0
    ensures |batches| > 0 ==> exists k :: 0 <= k < |batches| && |batches[k]| == m
    decreases |batches|
  {
    if |batches| == 0 then 0
    else
      var rest := MaxBatch(batches[1..]);
      assert forall k :: 1 <= k < |batches| ==> batches[k] == batches[1..][k - 1];
      if |batches[0]| >= rest then |batches[0]|
      else
        assert exists k :: 1 <= k < |batches| && |batches[k]| == rest by {
          var j :| 0 <= j < |batches[1..]| && |batches[1..][j]| == rest;
          assert batches[j + 1] == batches[1..][j];
        }
        rest
  }

  /** Consecutive frames, each from the state the previous one left: the
      final state and each frame's events. */
  function PrepareFrames(s: UniformState, read: TransformRead, frames: seq<FrameInput>): (r: (UniformState, seq<seq<UniformEvent>>))
    requires Valid(s)
    ensures Valid(r.0)
    ensures |r.1| == |frames|
    ensures s.viewBuffer != NullHandle ==> r.0.viewBuffer == s.viewBuffer
    decreases |frames|
  {
    if |frames| == 0 then (s, [])
    else
      var first := PrepareUniformBuffers(s, read, frames[0]);
      var rest := PrepareFrames(first.0, read, frames[1..]);
      (rest.0, [first.1] + rest.1)
  }

  /** Frames whose batches all fit, once a view buffer exists, change nothing
      and neither allocate nor rebind. */
  lemma {:induction false} FramesThatFitAreQuiet(s: UniformState, read: TransformRead, frames: seq<FrameInput>, m: nat)
    requires Valid(s) && s.viewBuffer != NullHandle
    requires m * Mat4Size <= s.transformDynamic.capacity
    requires forall k :: 0 <= k < |frames| ==> MaxBatch(frames[k].meshBatches) <= m
    ensures PrepareFrames(s, read, frames).0 == s
    ensures forall k :: 0 <= k < |frames| ==>
              !Allocates(PrepareFrames(s, read, frames).1[k]) && !RebindsDescriptor(PrepareFrames(s, read, frames).1[k])
    decreases |frames|
  {
    if |frames| > 0 {
      var batches := frames[0].meshBatches;
      assert forall k :: 0 <= k < |batches| ==> |batches[k]| * Mat4Size <= s.transformDynamic.capacity by {
        forall k | 0 <= k < |batches| ensures |batches[k]| * Mat4Size <= s.transformDynamic.capacity {
          assert |batches[k]| <= MaxBatch(batches) <= m;
        }
      }
      NoReallocationWhenBatchesFit(s, read, batches);
      var mesh := PrepareMeshBatches(s, read, batches);
      var view := PrepareViewBatches(s, frames[0].cameras);
      QuietConcat(mesh.1, view.1);
      assert forall k :: 0 <= k < |frames| - 1 ==> frames[1..][k] == frames[k + 1];
      FramesThatFitAreQuiet(s, read, frames[1..], m);
      var rest := PrepareFrames(s, read, frames[1..]);
      assert PrepareFrames(s, read, frames).1 == [mesh.1 + view.1] + rest.1;
    }
  }

  /** Frames whose largest mesh batch never grows reallocate and rebind at
      most in the first frame, provided a camera has been seen by its end:
      every later frame fits what the first one allocated, and the state
      after the first frame is the final one. */
  lemma NonIncreasingFramesReallocateOnce(s: UniformState, read: TransformRead, frames: seq<FrameInput>)
    requires Valid(s) && |frames| > 0
    requires s.viewBuffer != NullHandle || |frames[0].cameras| > 0
    requires forall k :: 0 < k < |frames| ==> MaxBatch(frames[k].meshBatches) <= MaxBatch(frames[k - 1].meshBatches)
    ensures var out := PrepareFrames(s, read, frames);
            && out.0 == PrepareUniformBuffers(s, read, frames[0]).0
            && forall k :: 0 < k < |frames| ==> !Allocates(out.1[k]) && !RebindsDescriptor(out.1[k])
  {
    var first := PrepareUniformBuffers(s, read, frames[0]);
    var m := MaxBatch(frames[0].meshBatches);
    FirstFrameCoversLater(s, read, frames);
    FramesThatFitAreQuiet(first.0, read, frames[1..], m);
  }

  /** After the first of a run of frames whose largest batch never grows, the
      dynamic buffer holds the largest batch of every later frame. */
  lemma FirstFrameCoversLater(s: UniformState, read: TransformRead, frames: seq<FrameInput>)
    requires Valid(s) && |frames| > 0
    requires forall k :: 0 < k < |frames| ==> MaxBatch(frames[k].meshBatches) <= MaxBatch(frames[k - 1].meshBatches)
    ensures MaxBatch(frames[0].meshBatches) * Mat4Size
              <= PrepareUniformBuffers(s, read, frames[0]).0.transformDynamic.capacity
    ensures forall k :: 0 <= k < |frames[1..]| ==> MaxBatch(frames[1..][k].meshBatches) <= MaxBatch(frames[0].meshBatches)
  {
    var first := PrepareUniformBuffers(s, read, frames[0]);
    var m := MaxBatch(frames[0].meshBatches);
    if |frames[0].meshBatches| > 0 {
      var j :| 0 <= j < |frames[0].meshBatches| && |frames[0].meshBatches[j]| == m;
      assert |frames[0].meshBatches[j]| * Mat4Size <= first.0.transformDynamic.capacity;
    }
    forall k | 0 <= k < |frames[1..]|
      ensures MaxBatch(frames[1..][k].meshBatches) <= m
    {
      assert frames[1..][k] == frames[k + 1];
      NonIncreasingPrefix(frames, k + 1);
    }
  }

  lemma {:induction false} NonIncreasingPrefix(frames: seq<FrameInput>, k: nat)
    requires k < |frames|
    requires forall j :: 0 < j < |frames| ==> MaxBatch(frames[j].meshBatches) <= MaxBatch(frames[j - 1].meshBatches)
    ensures MaxBatch(frames[k].meshBatches) <= MaxBatch(frames[0].meshBatches)
  {
    if k > 0 {
      NonIncreasingPrefix(frames, k - 1);
    }
  }

  /** One frame whose batches all fit: the dynamic buffer stays, nothing is
      released or rebound at binding 0, and the only buffer created is the
      view buffer the frame ends with. */
  lemma FitFrameKeepsDynamicBuffer(s: UniformState, read: TransformRead, frame: FrameInput, m: nat)
    requires Valid(s)
    requires m * Mat4Size <= s.transformDynamic.capacity
    requires MaxBatch(frame.meshBatches) <= m
    ensures var out := PrepareUniformBuffers(s, read, frame);
            && out.0.transformDynamic == s.transformDynamic
            && KeepsDynamicBuffer(out.1) && CreatesOnly(out.1, out.0.viewBuffer)
            && (out.0.viewBuffer == NullHandle ==> forall i :: 0 <= i < |out.1| ==> !out.1[i].CreateBuffer?)
  {
    var batches := frame.meshBatches;
    assert forall k :: 0 <= k < |batches| ==> |batches[k]| * Mat4Size <= s.transformDynamic.capacity by {
      forall k | 0 <= k < |batches| ensures |batches[k]| * Mat4Size <= s.transformDynamic.capacity {
        assert |batches[k]| <= MaxBatch(batches) <= m;
      }
    }
    NoReallocationWhenBatchesFit(s, read, batches);
    var mesh := PrepareMeshBatches(s, read, batches);
    var view := PrepareViewBatches(s, frame.cameras);
    KeepsConcat(mesh.1, view.1, view.0.viewBuffer);
    if view.0.viewBuffer == NullHandle {
      assert view.1 == [] && mesh.1 + view.1 == mesh.1;
    }
  }

  /** Prepending a frame that keeps the dynamic buffer to frames that do. */
  lemma {:induction false} KeepsCons(first: seq<UniformEvent>, rest: seq<seq<UniformEvent>>, h: Handle)
    requires KeepsDynamicBuffer(first) && CreatesOnly(first, h)
    requires forall k :: 0 <= k < |rest| ==> KeepsDynamicBuffer(rest[k]) && CreatesOnly(rest[k], h)
    ensures forall k :: 0 <= k < |[first] + rest| ==>
              KeepsDynamicBuffer(([first] + rest)[k]) && CreatesOnly(([first] + rest)[k], h)
  {
    forall k | 0 <= k < |[first] + rest|
      ensures KeepsDynamicBuffer(([first] + rest)[k]) && CreatesOnly(([first] + rest)[k], h)
    {
      if k > 0 {
        assert ([first] + rest)[k] == rest[k - 1];
      }
    }
  }

  /** Frames whose batches all fit the dynamic buffer leave it as it is, with
      or without a view buffer: no frame releases a buffer or rebinds binding
      0, and the only buffer any frame creates is the view buffer. */
  lemma {:induction false} FitFramesKeepDynamicBuffer(s: UniformState, read: TransformRead, frames: seq<FrameInput>, m: nat)
    requires Valid(s)
    requires m * Mat4Size <= s.transformDynamic.capacity
    requires forall k :: 0 <= k < |frames| ==> MaxBatch(frames[k].meshBatches) <= m
    ensures var out := PrepareFrames(s, read, frames);
            && out.0.transformDynamic == s.transformDynamic
            && forall k :: 0 <= k < |frames| ==> KeepsDynamicBuffer(out.1[k]) && CreatesOnly(out.1[k], out.0.viewBuffer)
    decreases |frames|
  {
    if |frames| > 0 {
      var first := PrepareUniformBuffers(s, read, frames[0]);
      FitFrameKeepsDynamicBuffer(s, read, frames[0], m);
      assert forall k :: 0 <= k < |frames| - 1 ==> frames[1..][k] == frames[k + 1];
      var rest := PrepareFrames(first.0, read, frames[1..]);
      FitFramesKeepDynamicBuffer(first.0, read, frames[1..], m);
      assert CreatesOnly(first.1, rest.0.viewBuffer) by {
        if first.0.viewBuffer != NullHandle {
          assert rest.0.viewBuffer == first.0.viewBuffer;
        }
      }
      KeepsCons(first.1, rest.1, rest.0.viewBuffer);
      assert PrepareFrames(s, read, frames) == (rest.0, [first.1] + rest.1);
    }
  }

  /** Frames whose largest mesh batch never grows settle the dynamic buffer
      in the first frame, whether or not a camera has been seen: the final
      dynamic buffer is the one the first frame left, and no later frame
      releases a buffer, rebinds binding 0, or creates any buffer but the
      view buffer. */
  lemma DynamicBufferSettlesAfterFirstFrame(s: UniformState, read: TransformRead, frames: seq<FrameInput>)
    requires Valid(s) && |frames| > 0
    requires forall k :: 0 < k < |frames| ==> MaxBatch(frames[k].meshBatches) <= MaxBatch(frames[k - 1].meshBatches)
    ensures var out := PrepareFrames(s, read, frames);
            && out.0.transformDynamic == PrepareUniformBuffers(s, read, frames[0]).0.transformDynamic
            && forall k :: 0 < k < |frames| ==> KeepsDynamicBuffer(out.1[k]) && CreatesOnly(out.1[k], out.0.viewBuffer)
  {
    var first := PrepareUniformBuffers(s, read, frames[0]);
    FirstFrameCoversLater(s, read, frames);
    FitFramesKeepDynamicBuffer(first.0, read, frames[1..], MaxBatch(frames[0].meshBatches));
    LaterFrames(s, read, frames);
  }

  /** The frames after the first are the run of the remaining inputs from the
      first frame's state. */
  lemma LaterFrames(s: UniformState, read: TransformRead, frames: seq<FrameInput>)
    requires Valid(s) && |frames| > 0
    ensures var first := PrepareUniformBuffers(s, read, frames[0]);
            var rest := PrepareFrames(first.0, read, frames[1..]);
            && PrepareFrames(s, read, frames).0 == rest.0
            && forall k :: 0 < k < |frames| ==> PrepareFrames(s, read, frames).1[k] == rest.1[k - 1]
  {
    var first := PrepareUniformBuffers(s, read, frames[0]);
    var rest := PrepareFrames(first.0, read, frames[1..]);
    assert PrepareFrames(s, read, frames) == (rest.0, [first.1] + rest.1);
  }
}

=== FILE: vk_types.dfy ===
/** The Vulkan vocabulary the renderer's decision logic works with.

    Handles are opaque numbers with 0 standing for VK_NULL_HANDLE; enums are
    datatypes; flag masks are sets of their bits. Only the enum values the
    renderer names, plus a few neighbours so that "some other value" exists,
    are listed. */
module VkTypes {

  /** An opaque Vulkan handle; 0 is VK_NULL_HANDLE. */
  type Handle = nat

  const NullHandle: Handle := 0

  /** 2^32, the modulus of a C++ `uint32_t`. */
  const Uint32Modulus: nat := 0x1_0000_0000

  /** std::numeric_limits<uint32_t>::max(). */
  const Uint32Max: nat := 0xFFFF_FFFF

  /** 2^64, the modulus of a 64-bit `size_t`. */
  const Uint64Modulus: nat := 0x1_0000_0000_0000_0000

  type Uint32 = x: nat | x < Uint32Modulus

  /** A C++ narrowing conversion to `uint32_t`. */
  function ToUint32(x: nat): (r: Uint32)
    ensures x < Uint32Modulus ==> r == x
  {
    x % Uint32Modulus
  }

  /** `count` consecutive fresh handles starting at `next`. */
  function FreshHandles(next: nat, count: nat): (hs: seq<Handle>)
    ensures |hs| == count
    ensures forall i :: 0 <= i < count ==> hs[i] == next + i
  {
    seq(count, i => next + i)
  }

  /** VkFormat. `FormatCode` gives each constructor its value in the Vulkan headers. */
  datatype Format =
    | FormatUndefined
    | R8G8B8A8Unorm
    | R8G8B8A8Srgb
    | B8G8R8A8Unorm
    | B8G8R8A8Srgb
    | A2B10G10R10UnormPack32
    | R16G16B16A16Sfloat
    | R32G32B32Sfloat
    | R32G32B32A32Sfloat
    | D16Unorm
    | X8D24UnormPack32
    | D32Sfloat
    | S8Uint
    | D16UnormS8Uint
    | D24UnormS8Uint
    | D32SfloatS8Uint

  function FormatCode(f: Format): nat {
    match f
    case FormatUndefined => 0
    case R8G8B8A8Unorm => 37
    case R8G8B8A8Srgb => 43
    case B8G8R8A8Unorm => 44
    case B8G8R8A8Srgb => 50
    case A2B10G10R10UnormPack32 => 64
    case R16G16B16A16Sfloat => 97
    case R32G32B32Sfloat => 106
    case R32G32B32A32Sfloat => 109
    case D16Unorm => 124
    case X8D24UnormPack32 => 125
    case D32Sfloat => 126
    case S8Uint => 127
    case D16UnormS8Uint => 128
    case D24UnormS8Uint => 129
    case D32SfloatS8Uint => 130
  }

  /** VkColorSpaceKHR (a selection). */
  datatype ColorSpace = SrgbNonlinear | DisplayP3Nonlinear | ExtendedSrgbLinear | Hdr10St2084

  /** VkPresentModeKHR. */
  datatype PresentMode = Immediate | Mailbox | Fifo | FifoRelaxed

  /** VkCompositeAlphaFlagBitsKHR. */
  datatype CompositeAlpha = AlphaOpaque | AlphaPreMultiplied | AlphaPostMultiplied | AlphaInherit

  /** VkImageUsageFlagBits (a selection). */
  datatype ImageUsage =
    | UsageTransferSrc | UsageTransferDst | UsageSampled | UsageStorage
    | UsageColorAttachment | UsageDepthStencilAttachment

  /** VkSurfaceTransformFlagBitsKHR. */
  datatype SurfaceTransform =
    | TransformIdentity | TransformRotate90 | TransformRotate180 | TransformRotate270
    | TransformHorizontalMirror | TransformInherit

  /** VkImageLayout (the layouts the renderer uses). */
  datatype ImageLayout =
    | LayoutUndefined
    | LayoutGeneral
    | LayoutColorAttachmentOptimal
    | LayoutDepthStencilAttachmentOptimal
    | LayoutTransferSrcOptimal
    | LayoutTransferDstOptimal
    | LayoutPresentSrc

  /** VkImageAspectFlagBits. */
  datatype ImageAspect = AspectColor | AspectDepth | AspectStencil

  /** VkQueueFlagBits. */
  datatype QueueFlag = QueueGraphics | QueueCompute | QueueTransfer | QueueSparseBinding

  /** VkFormatFeatureFlagBits (a selection). */
  datatype FormatFeature = FeatureSampledImage | FeatureColorAttachment | FeatureDepthStencilAttachment

  /** VkResult (a selection). */
  datatype VkResult =
    | Success | NotReady | Timeout | Suboptimal
    | ErrorOutOfDate | ErrorDeviceLost | ErrorSurfaceLost | ErrorOutOfHostMemory

  datatype Extent2D = Extent2D(width: Uint32, height: Uint32)

  /** Distinct formats have distinct Vulkan values, so comparing codes is comparing formats. */
  lemma FormatCodeInjective(f: Format, g: Format)
    ensures FormatCode(f) == FormatCode(g) ==> f == g
  {
  }
}

=== FILE: wrappers.dfy ===
/** Failure-carrying results shared by every module of the model. */
module Wrappers {

  datatype Option<+T> = None | Some(value: T)

  /** The outcome of an operation that may hit one of the source's fatal assertions. */
  datatype Result<+T, +E> = Ok(value: T) | Err(error: E)
}
